=== FILE: README.md ===
# Chat relay: registry and command routing

This project models the core of three Twisted chat relays: how each one registers and
unregisters its peers, and how it routes a received line or a console command. The three
relays are:

- `server.py`, the minimal relay. Connected protocols sit in a list, and each line goes
  to every protocol except its sender.
- `node.py`, the relay with numeric client IDs. It has the network commands `/disconnect`,
  `/exit` and `/send <id> <message>`, and its console adds `/connect <ip> <port>`.
- `test.py`, the relay that files peers by IP address in a `dict`. It adds `/broadcast`,
  `/help`, `/connect` and `/publickey`, and encrypts addressed messages under a public key.

Every handler is a pure function. It takes the registry, the connection it runs on and the
line. It returns what the handler would do: the lines written to which connections
(`Routing.Delivery`), the single Twisted call it makes (`loseConnection`, `reactor.stop`
or `connectTCP`), and, on the console, the text shown and whether the `>>> ` prompt is
written again. If the handler raises a Python 3 exception instead, the result is that
exception. Encryption is symbolic: `Sealed(key, plain)` is the ciphertext of `plain` under
`key`.

The modules are:

- `Options`: Python's `None`-or-value.
- `Lists`: first index, `list.remove` and duplicate-freedom.
- `PyText`: the Python string operations the handlers rely on. These are `startswith`,
  `str.strip` and `bytes.strip`, `split(sep, maxsplit)`, `split(sep)`, slicing, `int()`
  and `str()`.
- `PyDict`: an insertion-ordered `dict`.
- `Routing`: the shared result types.
- `ListRegistry`: the list registry of `server.py` and `node.py`.
- `Server`, `Node` and `KeyedNode`: the three relays' handlers.

The same `ListRegistry.Connect` and `ListRegistry.Disconnect` model `connectionMade` and
`connectionLost` in both `server.py` and `node.py`. The two files use the same list code.

Under Python 3 several handlers raise, and the model returns those exceptions as the code
raises them rather than repairing the code:

- Under Python 3, `server.py` encodes a `bytes` line, so its relay raises
  `AttributeError` as soon as there is a second client.
- `node.py` passes its `/send` usage message to `sendLine` as a `str`. That raises
  `TypeError`, so the message never reaches the sender.
- In `test.py`, an ordinary chat line reaches `broadcast` as a `str`, whose `decode`
  raises `AttributeError`. `/broadcast` does reach every registered peer, and that
  includes the sender.
- Neither relay has a branch for an unknown `/x` line or an empty line. `node.py` relays
  such a line to the other clients like any chat line. `test.py` sends it down its chat
  branch, which raises `AttributeError`.
- `test.py` files a second connection from the same host over the first. When either of
  them leaves, that host's entry is deleted, and the later `del` raises `KeyError`. This
  is `KeyedNode.SharedHostLosesEntry`.
- In `test.py`, `/connect` with three tokens always raises. A bad port raises
  `ValueError`. Otherwise the factory has no `private_key`, so `AttributeError` is raised
  before the reactor is asked to connect. No outbound peer is ever registered.

## Model

| member | source | states |
|---|---|---|
| Lists.FirstIndex | node.py:71-74 | the position of the first element equal to the wanted one, with no earlier match, or none when no element matches |
| Lists.FirstIndexFinds | node.py:71-75 | the search finds something exactly when the wanted element is in the list |
| Lists.Remove | server.py:16 | `list.remove` fails exactly when the element is absent; otherwise it cuts out the first occurrence, keeping everything before and after it in order, so the list is one shorter and has one copy of the element fewer |
| Lists.RemoveFirst | server.py:16 | removing a present element shortens the list by one; removing an absent one leaves it unchanged |
| Lists.RemoveFirstAt | server.py:16 | removal takes out the first occurrence and keeps the order of everything else |
| Lists.RemoveFirstKeepsOrder | server.py:16 | removal of a present element is the list before its first occurrence followed by the list after it |
| Lists.RemoveFirstMultiset | server.py:16 | removal takes away one copy of the element and nothing else |
| Lists.RemoveFirstAfterAppend | server.py:12-16 | removing an element that was just appended, and was absent before, gives back the earlier list |
| Lists.RemoveFirstKeepsNoDup | node.py:36 | removal keeps a duplicate-free list duplicate-free and leaves no copy of the removed element |
| Lists.RemoveFirstMembers | node.py:36 | after removal from a duplicate-free list, an element remains exactly when it was there and is not the one removed |
| PyText.PrefixesExclusive | node.py:44-48 | when no command token starts another, at most one token starts any given line |
| PyText.SliceFrom | test.py:99 | `line[n:]` is the suffix after the first `n` characters, and empty past the end |
| PyText.Strip | test.py:99 | `strip()` returns the infix of the text between its leading and trailing whitespace; the result neither starts nor ends with whitespace |
| PyText.StripKeeps | node.py:126 | text that neither starts nor ends with whitespace is unchanged by `strip()` |
| PyText.StripPadded | test.py:99 | `strip()` removes exactly the whitespace put in front of such text |
| PyText.StripIdempotent | node.py:126 | stripping twice gives the same as stripping once |
| PyText.SplitN | node.py:50 | `split(sep, maxsplit)` gives between one and `maxsplit + 1` parts |
| PyText.SplitNCharacterisation | node.py:50 | a list equals `split(sep, maxsplit)` exactly when it joins back to the text, has at most `maxsplit + 1` parts, and only its last part contains the separator, and only when all cuts were made |
| PyText.JoinSplitN | test.py:156 | joining the parts of `split(sep, maxsplit)` with the separator gives back the text |
| PyText.SplitThree | node.py:50-53 | `/send <a> <rest>` splits with `maxsplit` 2 into the token, `a` and the whole rest, spaces included |
| PyText.SplitFour | test.py:156-160 | `/send <key> <ip> <rest>` splits with `maxsplit` 3 into the token, the key, the IP and the whole rest |
| PyText.SplitAll | test.py:111 | `split(sep)` gives at least one part, and no part holds the separator |
| PyText.JoinSplitAll | test.py:111 | joining the parts of `split(sep)` with the separator gives back the text |
| PyText.SplitAllUnique | test.py:111 | the only list of separator-free parts that joins back to the text is `split(sep)` |
| PyText.SplitAllThree | test.py:111 | `split(sep)` of three separator-free tokens joined by the separator gives back exactly those tokens |
| PyText.IntToString | node.py:28 | `str(i)` is non-empty, starts with a minus sign exactly for negative numbers, and holds no space |
| PyText.ParseInt | node.py:52 | `int()` reads a number only from text that holds a digit, is not all whitespace, and holds none of the separators U+001C to U+001F, which `str.strip()` skips but `int()` does not; `ParseIntToString` proves `int(str(i)) == i` and `ParseIntNeedsDigit` the error case |
| PyText.ParseIntToString | node.py:52 | `int(str(i)) == i` for every integer of at most 4300 digits; beyond that limit Python's `str()` itself raises, and the model does not follow it there |
| PyText.ParseIntRejectsSeparator | node.py:52 | `int()` raises on text opened by U+001C, whatever digits follow it |
| PyText.ParseIntNeedsDigit | node.py:52 | `int()` raises `ValueError` on text that holds no digit |
| Routing.SendAll | test.py:104-105 | one delivery per handle, in the order given, each carrying the same line |
| Routing.Others | node.py:59-61 | the relay targets are the registered clients in registry order, minus the sender; every other client appears as often as it is registered |
| Routing.OthersOnce | node.py:59-61 | in a duplicate-free registry, each client other than the sender is reached exactly once and the sender never |
| ListRegistry.Connect | server.py:12 | connecting appends the protocol and keeps every earlier entry in place |
| ListRegistry.Disconnect | server.py:16 | disconnecting raises `ValueError` exactly when the protocol is not registered; otherwise its first entry is cut out and the other entries keep their order |
| ListRegistry.ConnectThenDisconnect | server.py:12-16 | a new protocol that connects and then disconnects leaves the registry as it was |
| ListRegistry.RegistryStaysDistinct | node.py:27-36 | connecting a new protocol and disconnecting any protocol keep the registry duplicate-free, and a disconnected protocol is gone |
| Server.LineReceived | server.py:18-22 | the handler finishes exactly when nobody but the sender is registered, and delivers nothing; otherwise it raises `AttributeError` |
| Node.Connect | node.py:17-28 | the protocol is appended and sent only to itself a welcome line whose tail `int()` reads back as its ID |
| Node.TokensPrefixFree | node.py:44-48 | no network command token starts another |
| Node.Classify | node.py:44-48 | each branch is taken exactly when the line starts with that branch's token |
| Node.SendToClient | node.py:63-75 | exactly one line goes out: the message, to the client with that ID when one is registered, and otherwise a not-found notice to the sender |
| Node.SendCommand | node.py:48-56 | without three parts the handler raises `TypeError`, and with a non-numeric ID it raises `ValueError`; otherwise the message goes to the client with that ID |
| Node.LineReceived | node.py:38-61 | `/disconnect` closes the sender, `/exit` stops the reactor, `/send` is a directed send, and any other line goes verbatim to every other client and never back to its sender |
| Node.SendLineParts | node.py:50-52 | `/send <str(id)> <message>` splits into the token, the ID and the whole message, and `int()` reads the ID back |
| Node.SendSeparatorRaises | node.py:50-52 | `/send` whose ID starts with U+001C raises `ValueError` in `int()`, even when the digits after it name a client |
| Node.SendReachesAddressee | node.py:48-54 | `/send <str(id)> <message>` with a registered ID delivers the whole message to that client alone |
| Node.WelcomeIdAddresses | node.py:28-54 | the ID a client is told in its welcome line is one that `/send` reaches it with |
| Node.Prompted | node.py:145 | the prompt is written after a handled command, and an exception passes through unchanged with the prompt unwritten |
| Node.ConnectToServer | node.py:147-161 | without three parts the console shows the usage line, a non-numeric port raises `ValueError`, and otherwise the reactor connects to that IP and port |
| Node.ConnectCommandDials | node.py:154-159 | `/connect <ip> <str(port)>` makes the reactor connect to that IP and port |
| Node.ConsoleSend | node.py:131-142 | the console `/send` delivers the message to the registered ID and skips the prompt; a missing ID or a wrong shape is shown on the console instead, and a non-numeric ID raises |
| Node.ConsoleSendCommand | node.py:131-139 | `/send <str(id)> <message>` on the console reaches a registered ID |
| Node.ConsoleDataReceived | node.py:118-145 | the console strips its input first; `/connect` and `/send` are prefixes, `/exit` must be the whole input, and anything else is shown as an unknown command |
| Node.TypedAsIs | node.py:126 | a command that neither starts nor ends with whitespace reaches the console unchanged |
| Node.ConnectDialsGivenAddress | node.py:126-128 | `/connect <ip> <port>` typed on the console connects to that address and writes the prompt again |
| Node.ConsoleSendReachesAddressee | node.py:126-139 | `/send <id> <message>` typed on the console delivers the message to that client and writes no prompt |
| Node.ExitMatchesExactlyOnConsole | node.py:126-130 | `/exit now` is an unknown command on the console but stops the reactor as a network line |
| Node.ConsoleStripsFirst | node.py:126 | surrounding whitespace never changes what the console does |
| PyDict.Empty | test.py:123 | a new dict has no entries |
| PyDict.Set | test.py:46 | assignment maps the key to the value; a present key keeps its place, and a new key goes last |
| PyDict.Get | test.py:79 | `get` answers exactly for present keys, with their value |
| PyDict.Delete | test.py:53 | `del` raises `KeyError` exactly for an absent key; otherwise only that entry goes, and the key is cut out of the insertion order with the other keys keeping their order |
| PyDict.DeleteValid | test.py:53 | deleting a present key leaves every key listed once in the order, each with an entry, and cuts the key out of the order where it stood |
| PyDict.Values | test.py:104 | `values()` lists each entry's value in insertion order |
| PyDict.GetAfterSet | test.py:46 | after an assignment, the key reads as the new value and every other key reads as before |
| PyDict.GetAfterDelete | test.py:53 | after `del`, the key reads as missing and every other key reads as before |
| PyDict.DeleteAfterSetFresh | test.py:46-53 | inserting a new key and deleting it restores the dict, order included |
| PyDict.EachKeyOnce | test.py:104 | every key sits at exactly one position of the insertion order |
| KeyedNode.Connect | test.py:42-47 | a UNIX peer raises `AttributeError`; a TCP peer is filed under its host, replacing any earlier entry there in place or going last when the host is new, and only it is welcomed |
| KeyedNode.Disconnect | test.py:49-53 | a UNIX peer changes nothing; a TCP peer deletes its host's entry, whichever protocol that entry holds, and the other hosts keep their order; `KeyError` when the host has no entry |
| KeyedNode.ConnectKeepsWellKeyed | test.py:46 | connecting a new TCP peer keeps every entry filed under its own host and every protocol filed once |
| KeyedNode.DisconnectKeepsWellKeyed | test.py:53 | disconnecting keeps that invariant |
| KeyedNode.ConnectThenDisconnect | test.py:42-53 | a peer from a host not yet filed that connects and then leaves restores the registry exactly |
| KeyedNode.SharedHostLosesEntry | test.py:46-53 | with two connections from one host, the first to leave unregisters the second, and the second's leaving raises `KeyError` |
| KeyedNode.TokensExclusive | test.py:57-69 | at most one of the seven command tokens starts a line |
| KeyedNode.Classify | test.py:55-73 | each branch is taken exactly when the line starts with that branch's token |
| KeyedNode.SendToClient | test.py:75-86 | exactly one line goes out: the message sealed under the addressee's own key to the peer filed under that IP, or else a not-found notice or the usage line to the sender |
| KeyedNode.Handles | test.py:104 | the protocols of `clients.values()`, in insertion order |
| KeyedNode.Broadcast | test.py:102-105 | every registered protocol is sent the text, in insertion order |
| KeyedNode.BroadcastReachesEachOnce | test.py:102-105 | in a well-keyed registry every registered protocol, the sender included, gets a broadcast exactly once |
| KeyedNode.BroadcastText | test.py:99 | the text after the `/broadcast` token's length, stripped: a piece of that remainder starting right after its leading whitespace, with no whitespace at either end; `BroadcastSendsMessage` gives the exact message |
| KeyedNode.BroadcastSendsMessage | test.py:98-100 | `/broadcast` followed by whitespace and a message broadcasts exactly that message |
| KeyedNode.ConnectToServer | test.py:110-116 | with three tokens the handler raises `ValueError` for a bad port and `AttributeError` otherwise; any other token count gives the usage line |
| KeyedNode.LineReceived | test.py:55-73 | each command's branch as its token selects it; `/help` and `/publickey` reply to the sender alone, a chat line raises `AttributeError`, and no network line makes the reactor connect |
| KeyedNode.SendReachesHost | test.py:75-82 | `/send <ip> <message>` to a filed host delivers the whole message, sealed under that peer's key, to that peer alone |
| KeyedNode.PrepareMessage | test.py:155-168 | the console `/send` seals the message under the key written in the command and sends it to the protocol filed under the IP; a missing IP or a wrong shape is shown on the console |
| KeyedNode.ConsoleSendUsesGivenKey | test.py:155-164 | `/send <key> <ip> <message>` on the console seals under the given key, whatever key the addressee has |
| KeyedNode.ClassifyConsole | test.py:137-152 | `/exit` is taken exactly when it is the whole command, and each other branch exactly when the command starts with its token |
| KeyedNode.ConsoleDataReceived | test.py:137-153 | the console strips its input and dispatches by command; the prompt is written after every command that does not raise |
| KeyedNode.ConsoleStripsFirst | test.py:138 | surrounding whitespace never changes what the console does |
| KeyedNode.ConnectSplit | test.py:111-112 | `/connect <IP> <port>` splits into the token, the IP and the port when neither holds a space |
| KeyedNode.ConnectLineTokens | test.py:111-113 | `/connect <ip> <str(port)>` splits into three tokens whose last reads back as the port |
| KeyedNode.ConnectAlwaysRaises | test.py:110-114 | `/connect <ip> <port>` with a numeric port raises `AttributeError` as a network line |
| KeyedNode.ConsoleConnectAlwaysRaises | test.py:147-148 | `/connect <ip> <port>` with a numeric port raises `AttributeError` on the console too |

## Left out

- Encryption and keys: `gen_keys`, `get_password`, `encrypt_message` and `decrypt_message` are not modelled. A sealed line records the key and the plaintext. The exceptions raised by a key that `RSA.import_key` cannot read, or by a plaintext too long for OAEP, are not modelled.
- The outbound clients (`ChatClientProtocol`, `ChatClientFactory`): they only print what they receive, so they are left out. `reactor.connectTCP` is kept only as a requested effect.
- Printing: the status lines `print` writes are not modelled. Console output is kept only where it is the console command's answer.
- Text encoding: lines are modelled as already decoded text. `UnicodeDecodeError` on bad UTF-8 is not modelled.
- Framing: the `\r\n` delimiter, the `LineReceiver` line-length limit, and what Twisted does with a handler's escaped exception (logging it, or dropping the connection) are not modelled.
- `PyText.ParseInt`: only ASCII digits are accepted. Python's `int()` also accepts other Unicode decimal digits.
- `PyText.ParseInt`: the limit on digits that `int()` and `str()` convert (4300 by default in current Python releases, adjustable through `sys.set_int_max_str_digits` and `PYTHONINTMAXSTRDIGITS`, and 0 to switch it off) is not modelled. With the default, `/send` with an ID of more than 4300 digits raises `ValueError` in `node.py`, where the model answers that no such client exists.
- `ListRegistry.Connect` and `Node.Connect` never fail. `server.py:10` and `node.py:25` read `peer.host`, which a UNIX-socket peer lacks. Every relay listens on TCP only (`server.py:36`, `node.py:207`), so every peer has a host.
- `Node.Connect`: a client's ID is modelled as its connection handle. CPython's `id()` can be reused once an object is freed, and that reuse is not modelled.
- Scheduling: everything outside single handler calls is left out. That covers the reactor loop, `listenTCP`, `stdio.StandardIO`, reading the port with `input()`, and running several connections at once. Each handler runs alone and to completion.
- The other files (`client.py`, `ssh_client.py`, `ssh_server.py`, `internet_test.py` and the RSA helper scripts) are not part of this model.

=== FILE: keyed_node.dfy ===
/** The relay that keys its peers by IP address: a `dict` from host to protocol, the
    network commands `/disconnect`, `/exit`, `/send <IP> <message>`, `/broadcast <message>`,
    `/help`, `/connect <IP> <port>` and `/publickey`, and a console with the same commands
    where `/send` names the public key to encrypt with. Encryption is symbolic: a
    `Sealed(key, plain)` line is `plain` encrypted under `key`. */
module KeyedNode {
  import opened Options
  import opened PyText
  import opened Routing
  import opened PyDict

  /** What `transport.getPeer()` answers: an IP address, or a UNIX socket, which has no
      `host` attribute. */
  datatype Address = Tcp(host: string, port: int) | Unix(path: string)

  /** A connection's protocol: its handle, the address it came from, and the public key it
      generated when it was built. */
  datatype Peer = Peer(handle: Handle, address: Address, publicKey: string)

  /** `factory.clients`. */
  type Registry = Dict<Peer>

  const DisconnectToken := "/disconnect"
  const ExitToken := "/exit"
  const SendToken := "/send"
  const BroadcastToken := "/broadcast"
  const HelpToken := "/help"
  const ConnectToken := "/connect"
  const PublicKeyToken := "/publickey"

  const Welcome := "Welcome to the chat server!"
  const SendUsage := "Invalid command usage. Use /send <IP> <message>"
  const ConnectUsage := "Invalid command usage. Use /connect <IP> <port>"
  const ConsoleSendUsage := "Invalid command usage. Use /send <public_key> <IP> <message>"
  const UnknownConsoleCommand := "Unknown command. Type '/help' to see the list of valid commands."

  /** The help text keeps the indentation of the triple-quoted literal it is written as. */
  const Indent := "                        "
  const HelpText :=
    "Available commands:\n"
    + Indent + "/exit: Stop the server\n"
    + Indent + "/send <IP>: Send a message to a specific client\n"
    + Indent + "/broadcast <message>: Send a message to all connected clients\n"
    + Indent + "/help: Show this help message\n"
    + Indent + "/connect <IP> <port>: Connect to a server\n"
    + Indent + "/publickey: Display your public key"

  function NotFound(host: string): string {
    "Client with IP " + host + " not found."
  }

  function PublicKeyLine(key: string): string {
    "Your public key is: " + key
  }

  // ---------------------------------------------------------------- registry

  /** Every entry is a TCP peer filed under its own host, and no protocol is filed twice. */
  predicate WellKeyed(reg: Registry) {
    && (forall key :: key in reg.entries ==>
          reg.entries[key].address.Tcp? && reg.entries[key].address.host == key)
    && (forall a, b :: a in reg.entries && b in reg.entries && a != b ==>
          reg.entries[a].handle != reg.entries[b].handle)
  }

  /** The handle is not that of any registered protocol. */
  predicate Fresh(reg: Registry, h: Handle) {
    forall key :: key in reg.entries ==> reg.entries[key].handle != h
  }

  datatype Joined = Joined(registry: Registry, welcome: Delivery)

  /** `connectionMade`: the peer is filed under its host, replacing whatever protocol was
      filed there, and is welcomed. A UNIX peer has no host, so the first use of
      `peer.host` raises `AttributeError` before anything is filed. */
  function Connect(reg: Registry, p: Peer): (r: Result<Joined>)
    ensures r.Err? <==> p.address.Unix?
    ensures r.Err? ==> r.error == AttributeError
    ensures r.Ok? ==> r.value.registry.entries == reg.entries[p.address.host := p]
    ensures r.Ok? && p.address.host in reg.entries ==> r.value.registry.order == reg.order
    ensures r.Ok? && p.address.host !in reg.entries ==>
      r.value.registry.order == reg.order + [p.address.host]
    ensures r.Ok? ==> r.value.welcome == Delivery(p.handle, Text(Welcome))
  {
    match p.address
    case Unix(_) => Err(AttributeError)
    case Tcp(host, _) => Ok(Joined(Set(reg, host, p), Delivery(p.handle, Text(Welcome))))
  }

  /** `connectionLost`: a peer with a host has the entry under that host deleted, whichever
      protocol it holds; `KeyError` when there is none. A UNIX peer changes nothing. */
  function Disconnect(reg: Registry, p: Peer): (r: Result<Registry>)
    ensures p.address.Unix? ==> r == Ok(reg)
    ensures p.address.Tcp? ==> (r.Err? <==> p.address.host !in reg.entries)
    ensures r.Err? ==> r.error == KeyError
    ensures p.address.Tcp? && r.Ok? ==> r.value.entries == reg.entries - {p.address.host}
    ensures p.address.Tcp? && r.Ok? ==> exists i ::
      && 0 <= i < |reg.order| && reg.order[i] == p.address.host
      && r.value.order == reg.order[..i] + reg.order[i + 1..]
  {
    match p.address
    case Unix(_) => Ok(reg)
    case Tcp(host, _) =>
      match Delete(reg, host)
      case None => Err(KeyError)
      case Some(d) => Ok(d)
  }

  /** Connecting a fresh TCP peer keeps the registry well keyed. */
  lemma ConnectKeepsWellKeyed(reg: Registry, p: Peer)
    requires WellKeyed(reg) && Fresh(reg, p.handle) && p.address.Tcp?
    ensures WellKeyed(Connect(reg, p).value.registry)
  {
  }

  /** Disconnecting keeps the registry well keyed. */
  lemma DisconnectKeepsWellKeyed(reg: Registry, p: Peer)
    requires WellKeyed(reg) && Disconnect(reg, p).Ok?
    ensures WellKeyed(Disconnect(reg, p).value)
  {
  }

  /** A peer from a host not yet filed that connects and leaves again restores the
      registry exactly, insertion order included. */
  lemma ConnectThenDisconnect(reg: Registry, p: Peer)
    requires p.address.Tcp? && p.address.host !in reg.entries
    ensures Disconnect(Connect(reg, p).value.registry, p) == Ok(reg)
  {
    DeleteAfterSetFresh(reg, p.address.host, p);
  }

  /** Two connections from one host share one entry: when the first leaves it deletes the
      second's entry, and when the second leaves `del` raises `KeyError`. */
  lemma SharedHostLosesEntry(reg: Registry, p: Peer, q: Peer)
    requires p.address.Tcp? && q.address.Tcp? && p.address.host == q.address.host
    ensures var both := Connect(Connect(reg, p).value.registry, q).value.registry;
      && Disconnect(both, p).Ok?
      && Get(Disconnect(both, p).value, q.address.host) == None
      && Disconnect(Disconnect(both, p).value, q) == Err(KeyError)
  {
  }

  // ---------------------------------------------------------------- network lines

  /** The branch of `lineReceived` a line takes. */
  datatype Command =
    | DisconnectCmd | ExitCmd | SendCmd | BroadcastCmd | HelpCmd | ConnectCmd | PublicKeyCmd
    | ChatLine

  const Tokens := [DisconnectToken, ExitToken, SendToken, BroadcastToken, HelpToken, ConnectToken, PublicKeyToken]

  lemma TokensExclusive(line: string)
    ensures forall i, j :: 0 <= i < |Tokens| && 0 <= j < |Tokens| && StartsWith(line, Tokens[i]) && StartsWith(line, Tokens[j]) ==> i == j
  {
    PrefixFreeBySecondChar(Tokens);
    PrefixesExclusive(Tokens, line);
  }

  /** `lineReceived` tests the seven tokens in order; no token starts another, so each
      branch is taken exactly when the line starts with its token. */
  function Classify(line: string): (c: Command)
    ensures c == DisconnectCmd <==> StartsWith(line, DisconnectToken)
    ensures c == ExitCmd <==> StartsWith(line, ExitToken)
    ensures c == SendCmd <==> StartsWith(line, SendToken)
    ensures c == BroadcastCmd <==> StartsWith(line, BroadcastToken)
    ensures c == HelpCmd <==> StartsWith(line, HelpToken)
    ensures c == ConnectCmd <==> StartsWith(line, ConnectToken)
    ensures c == PublicKeyCmd <==> StartsWith(line, PublicKeyToken)
  {
    TokensExclusive(line);
    assert Tokens[0] == DisconnectToken && Tokens[1] == ExitToken && Tokens[2] == SendToken;
    assert Tokens[3] == BroadcastToken && Tokens[4] == HelpToken && Tokens[5] == ConnectToken;
    assert Tokens[6] == PublicKeyToken;
    if StartsWith(line, DisconnectToken) then DisconnectCmd
    else if StartsWith(line, ExitToken) then ExitCmd
    else if StartsWith(line, SendToken) then SendCmd
    else if StartsWith(line, BroadcastToken) then BroadcastCmd
    else if StartsWith(line, HelpToken) then HelpCmd
    else if StartsWith(line, ConnectToken) then ConnectCmd
    else if StartsWith(line, PublicKeyToken) then PublicKeyCmd
    else ChatLine
  }

  /** `sendToClient`: `split(" ", 2)`; with three parts the message is encrypted under the
      addressee's own public key and sent to it alone, or the sender is told the IP is
      unknown; otherwise the sender gets the usage line. */
  function SendToClient(reg: Registry, sender: Handle, line: string): (r: Reaction)
    ensures r.effect == NoEffect && |r.deliveries| == 1
    ensures var parts := SplitN(line, ' ', 2);
      && (|parts| != 3 ==> r.deliveries[0] == Delivery(sender, Text(SendUsage)))
      && (|parts| == 3 && parts[1] in reg.entries ==>
            (var dest := reg.entries[parts[1]];
             r.deliveries[0] == Delivery(dest.handle, Sealed(dest.publicKey, parts[2]))))
      && (|parts| == 3 && parts[1] !in reg.entries ==>
            r.deliveries[0] == Delivery(sender, Text(NotFound(parts[1]))))
  {
    var parts := SplitN(line, ' ', 2);
    if |parts| == 3 then
      match Get(reg, parts[1])
      case Some(dest) => Reaction([Delivery(dest.handle, Sealed(dest.publicKey, parts[2]))], NoEffect)
      case None => Reply(sender, NotFound(parts[1]))
    else Reply(sender, SendUsage)
  }

  /** The handles of `clients.values()`, in insertion order. */
  function Handles(reg: Registry): (hs: seq<Handle>)
    ensures |hs| == |reg.order|
    ensures forall k :: 0 <= k < |hs| ==> hs[k] == reg.entries[reg.order[k]].handle
  {
    var vs := Values(reg);
    seq(|vs|, k requires 0 <= k < |vs| => vs[k].handle)
  }

  /** `broadcast`: every registered protocol is sent the text, the sender included when it
      is registered. */
  function Broadcast(reg: Registry, text: string): (ds: seq<Delivery>)
    ensures Recipients(ds) == Handles(reg)
    ensures forall k :: 0 <= k < |ds| ==> ds[k].line == Text(text)
  {
    SendAll(Handles(reg), Text(text))
  }

  /** In a well-keyed registry each registered protocol is reached exactly once. */
  lemma {:induction false} BroadcastReachesEachOnce(reg: Registry, text: string, key: string)
    requires WellKeyed(reg) && key in reg.entries
    ensures multiset(Recipients(Broadcast(reg, text)))[reg.entries[key].handle] == 1
  {
    var hs := Handles(reg);
    forall a, b | 0 <= a < b < |hs| ensures hs[a] != hs[b] {
      assert reg.order[a] != reg.order[b];
    }
    EachKeyOnce(reg, key);
    var k :| 0 <= k < |reg.order| && reg.order[k] == key;
    assert hs[k] == reg.entries[key].handle;
    NoDupCount(hs, reg.entries[key].handle);
  }

  /** `broadcastMessage`: what follows `/broadcast`, stripped of whitespace. The text is
      taken from the line after the token's length, and neither starts nor ends with
      whitespace. */
  function BroadcastText(line: string): (text: string)
    ensures |BroadcastToken| + |text| <= |line| || text == []
    ensures text == [] || (!IsStrSpace(text[0]) && !IsStrSpace(text[|text| - 1]))
    ensures var rest := SliceFrom(line, |BroadcastToken|);
      var i := LeadingRun(rest, IsStrSpace);
      i + |text| <= |rest| && text == rest[i..i + |text|]
  {
    Strip(SliceFrom(line, |BroadcastToken|), IsStrSpace)
  }

  /** `/broadcast` followed by whitespace and a message broadcasts exactly that message. */
  lemma BroadcastSendsMessage(pad: string, message: string)
    requires forall k :: 0 <= k < |pad| ==> IsStrSpace(pad[k])
    requires message == [] || (!IsStrSpace(message[0]) && !IsStrSpace(message[|message| - 1]))
    ensures BroadcastText(BroadcastToken + pad + message) == message
  {
    assert SliceFrom(BroadcastToken + pad + message, |BroadcastToken|) == pad + message;
    StripPadded(pad, message, IsStrSpace);
  }

  /** `connectToServer`: the line is split at every space; with exactly three tokens
      `int()` raises `ValueError` on a bad port, and otherwise the factory has no
      `private_key` for `getClientProtocol`, so `AttributeError` is raised before the
      reactor is asked to connect. Any other token count answers with the usage line. */
  function ConnectToServer(line: string): (r: Result<string>)
    ensures var parts := SplitAll(line, ' ');
      && (r.Ok? <==> |parts| != 3)
      && (r.Ok? ==> r.value == ConnectUsage)
      && (r.Err? ==> (r.error == ValueError <==> ParseInt(parts[2]).None?))
      && (r.Err? ==> r.error in {ValueError, AttributeError})
  {
    var parts := SplitAll(line, ' ');
    if |parts| == 3 then
      match ParseInt(parts[2])
      case None => Err(ValueError)
      case Some(_) => Err(AttributeError)
    else Ok(ConnectUsage)
  }

  /** `lineReceived` on a network connection from `me`. An ordinary chat line is passed
      to `broadcast` as `str`, whose `decode` raises `AttributeError`. */
  function LineReceived(reg: Registry, me: Peer, line: string): (r: Result<Reaction>)
    ensures StartsWith(line, DisconnectToken) ==> r == Ok(Reaction([], LoseConnection(me.handle)))
    ensures StartsWith(line, ExitToken) ==> r == Ok(Reaction([], StopReactor))
    ensures StartsWith(line, SendToken) ==> r == Ok(SendToClient(reg, me.handle, line))
    ensures StartsWith(line, BroadcastToken) ==> r == Ok(Reaction(Broadcast(reg, BroadcastText(line)), NoEffect))
    ensures StartsWith(line, HelpToken) ==> r == Ok(Reply(me.handle, HelpText))
    ensures StartsWith(line, ConnectToken) ==>
      (ConnectToServer(line).Ok? ==> r == Ok(Reply(me.handle, ConnectUsage)))
      && (ConnectToServer(line).Err? ==> r == Err(ConnectToServer(line).error))
    ensures StartsWith(line, PublicKeyToken) ==> r == Ok(Reply(me.handle, PublicKeyLine(me.publicKey)))
    ensures Classify(line) == ChatLine ==> r == Err(AttributeError)
    ensures r.Ok? ==> !r.value.effect.ConnectTcp?
  {
    match Classify(line)
    case DisconnectCmd => Ok(Reaction([], LoseConnection(me.handle)))
    case ExitCmd => Ok(Reaction([], StopReactor))
    case SendCmd => Ok(SendToClient(reg, me.handle, line))
    case BroadcastCmd => Ok(Reaction(Broadcast(reg, BroadcastText(line)), NoEffect))
    case HelpCmd => Ok(Reply(me.handle, HelpText))
    case ConnectCmd =>
      (match ConnectToServer(line)
       case Ok(text) => Ok(Reply(me.handle, text))
       case Err(e) => Err(e))
    case PublicKeyCmd => Ok(Reply(me.handle, PublicKeyLine(me.publicKey)))
    case ChatLine => Err(AttributeError)
  }

  /** `/send <IP> <message>` to a registered host delivers the whole message, encrypted
      under that peer's own public key, to that peer only. */
  lemma SendReachesHost(reg: Registry, me: Peer, host: string, message: string)
    requires host in reg.entries && Lacks(host, ' ')
    ensures var dest := reg.entries[host];
      LineReceived(reg, me, SendToken + " " + host + " " + message)
        == Ok(Reaction([Delivery(dest.handle, Sealed(dest.publicKey, message))], NoEffect))
  {
    var line := SendToken + " " + host + " " + message;
    assert line == SendToken + [' '] + host + [' '] + message;
    SplitThree(SendToken, host, message, ' ');
    assert line[..|SendToken|] == SendToken;
  }

  // ---------------------------------------------------------------- console

  /** The console `/send <public_key> <IP> <message>`: `split(" ", 3)`; the message is
      encrypted under the key written in the command, not the addressee's, and sent to the
      protocol filed under the IP. A missing IP or a wrong shape is printed. */
  function PrepareMessage(reg: Registry, command: string): (r: ConsoleReaction)
    ensures r.effect == NoEffect && r.prompt
    ensures var parts := SplitN(command, ' ', 3);
      && (|parts| != 4 ==> r.deliveries == [] && r.shown == [ConsoleSendUsage])
      && (|parts| == 4 && parts[2] in reg.entries ==>
            r.deliveries == [Delivery(reg.entries[parts[2]].handle, Sealed(parts[1], parts[3]))] && r.shown == [])
      && (|parts| == 4 && parts[2] !in reg.entries ==>
            r.deliveries == [] && r.shown == [NotFound(parts[2])])
  {
    var parts := SplitN(command, ' ', 3);
    if |parts| == 4 then
      match Get(reg, parts[2])
      case Some(dest) => ConsoleReaction([Delivery(dest.handle, Sealed(parts[1], parts[3]))], [], NoEffect, true)
      case None => ConsoleReaction([], [NotFound(parts[2])], NoEffect, true)
    else ConsoleReaction([], [ConsoleSendUsage], NoEffect, true)
  }

  /** `/send <key> <IP> <message>` on the console seals the message under the key given,
      whatever key the addressee announced. */
  lemma ConsoleSendUsesGivenKey(reg: Registry, key: string, host: string, message: string)
    requires host in reg.entries && Lacks(key, ' ') && Lacks(host, ' ')
    ensures PrepareMessage(reg, SendToken + " " + key + " " + host + " " + message).deliveries
      == [Delivery(reg.entries[host].handle, Sealed(key, message))]
  {
    assert SendToken + " " + key + " " + host + " " + message
      == SendToken + [' '] + key + [' '] + host + [' '] + message;
    SplitFour(SendToken, key, host, message, ' ');
  }

  const ConsoleTokens := [ExitToken, SendToken, HelpToken, BroadcastToken, ConnectToken, PublicKeyToken]

  /** The console tests `== "/exit"` first and then the prefixes `/send`, `/help`,
      `/broadcast`, `/connect`, `/publickey`; `ChatLine` stands for an unknown command. */
  function ClassifyConsole(command: string): (c: Command)
    ensures c != DisconnectCmd
    ensures c == ExitCmd <==> command == ExitToken
    ensures c == SendCmd <==> StartsWith(command, SendToken)
    ensures c == HelpCmd <==> StartsWith(command, HelpToken)
    ensures c == BroadcastCmd <==> StartsWith(command, BroadcastToken)
    ensures c == ConnectCmd <==> StartsWith(command, ConnectToken)
    ensures c == PublicKeyCmd <==> StartsWith(command, PublicKeyToken)
  {
    PrefixFreeBySecondChar(ConsoleTokens);
    PrefixesExclusive(ConsoleTokens, command);
    assert ConsoleTokens[0] == ExitToken && ConsoleTokens[1] == SendToken && ConsoleTokens[2] == HelpToken;
    assert ConsoleTokens[3] == BroadcastToken && ConsoleTokens[4] == ConnectToken && ConsoleTokens[5] == PublicKeyToken;
    assert command == ExitToken ==> StartsWith(command, ExitToken);
    if command == ExitToken then ExitCmd
    else if StartsWith(command, SendToken) then SendCmd
    else if StartsWith(command, HelpToken) then HelpCmd
    else if StartsWith(command, BroadcastToken) then BroadcastCmd
    else if StartsWith(command, ConnectToken) then ConnectCmd
    else if StartsWith(command, PublicKeyToken) then PublicKeyCmd
    else ChatLine
  }

  /** `ChatConsoleProtocol.dataReceived` on the console whose own public key is
      `consoleKey`: the input is stripped of ASCII whitespace, `/exit` must be the whole
      input, the other commands are prefixes, and the prompt is written after every
      command that does not raise. */
  function ConsoleDataReceived(reg: Registry, consoleKey: string, data: string): (r: Result<ConsoleReaction>)
    ensures r.Ok? ==> r.value.prompt
    ensures var command := Strip(data, IsByteSpace);
      && (command == ExitToken ==> r == Ok(ConsoleReaction([], [], StopReactor, true)))
      && (StartsWith(command, SendToken) ==> r == Ok(PrepareMessage(reg, command)))
      && (StartsWith(command, HelpToken) ==> r == Ok(ConsoleReaction([], [HelpText], NoEffect, true)))
      && (StartsWith(command, BroadcastToken) ==>
            r == Ok(ConsoleReaction(Broadcast(reg, BroadcastText(command)), [], NoEffect, true)))
      && (StartsWith(command, ConnectToken) ==>
            (ConnectToServer(command).Ok? ==> r == Ok(ConsoleReaction([], [ConnectUsage], NoEffect, true)))
            && (ConnectToServer(command).Err? ==> r == Err(ConnectToServer(command).error)))
      && (StartsWith(command, PublicKeyToken) ==>
            r == Ok(ConsoleReaction([], [PublicKeyLine(consoleKey)], NoEffect, true)))
      && (ClassifyConsole(command) == ChatLine ==>
            r == Ok(ConsoleReaction([], [UnknownConsoleCommand], NoEffect, true)))
  {
    var command := Strip(data, IsByteSpace);
    match ClassifyConsole(command)
    case ExitCmd => Ok(ConsoleReaction([], [], StopReactor, true))
    case SendCmd => Ok(PrepareMessage(reg, command))
    case HelpCmd => Ok(ConsoleReaction([], [HelpText], NoEffect, true))
    case BroadcastCmd => Ok(ConsoleReaction(Broadcast(reg, BroadcastText(command)), [], NoEffect, true))
    case ConnectCmd =>
      (match ConnectToServer(command)
       case Ok(text) => Ok(ConsoleReaction([], [text], NoEffect, true))
       case Err(e) => Err(e))
    case PublicKeyCmd => Ok(ConsoleReaction([], [PublicKeyLine(consoleKey)], NoEffect, true))
    case _ => Ok(ConsoleReaction([], [UnknownConsoleCommand], NoEffect, true))
  }

  /** Surrounding whitespace never changes what the console does. */
  lemma ConsoleStripsFirst(reg: Registry, consoleKey: string, data: string)
    ensures ConsoleDataReceived(reg, consoleKey, Strip(data, IsByteSpace)) == ConsoleDataReceived(reg, consoleKey, data)
  {
    StripIdempotent(data, IsByteSpace);
  }

  /** `/connect <IP> <port>` splits into exactly three tokens when neither the IP nor the
      port holds a space. */
  lemma ConnectSplit(ip: string, port: string)
    requires Lacks(ip, ' ') && Lacks(port, ' ')
    ensures SplitAll(ConnectToken + " " + ip + " " + port, ' ') == [ConnectToken, ip, port]
  {
    assert ConnectToken + " " + ip + " " + port == ConnectToken + [' '] + ip + [' '] + port;
    SplitAllThree(ConnectToken, ip, port, ' ');
  }

  /** `/connect <IP> <port>` with a numeric port splits into exactly three tokens. */
  lemma ConnectLineTokens(ip: string, port: nat)
    requires Lacks(ip, ' ')
    ensures var parts := SplitAll(ConnectToken + " " + ip + " " + IntToString(port), ' ');
      |parts| == 3 && ParseInt(parts[2]) == Some(port as int)
  {
    ConnectSplit(ip, IntToString(port));
    ParseIntToString(port);
  }

  /** A `/connect` with an IP and a numeric port never reaches the reactor from a network
      line: the missing `private_key` raises first. */
  lemma ConnectAlwaysRaises(reg: Registry, me: Peer, ip: string, port: nat)
    requires Lacks(ip, ' ')
    ensures LineReceived(reg, me, ConnectToken + " " + ip + " " + IntToString(port)) == Err(AttributeError)
  {
    var line := ConnectToken + " " + ip + " " + IntToString(port);
    ConnectLineTokens(ip, port);
    assert line[..|ConnectToken|] == ConnectToken;
  }

  /** The same holds on the console. */
  lemma ConsoleConnectAlwaysRaises(reg: Registry, consoleKey: string, ip: string, port: nat)
    requires Lacks(ip, ' ')
    ensures ConsoleDataReceived(reg, consoleKey, ConnectToken + " " + ip + " " + IntToString(port)) == Err(AttributeError)
  {
    var p := IntToString(port);
    var line := ConnectToken + " " + ip + " " + p;
    ConnectLineTokens(ip, port);
    assert line[..|ConnectToken|] == ConnectToken;
    assert line[|line| - 1] == p[|p| - 1];
    StripKeeps(line, IsByteSpace);
  }
}

=== FILE: listregistry.dfy ===
/** The list registry of server.py and node.py: `factory.clients`, the connected protocols
    in connection order, appended to on connect and removed from on disconnect. */
module ListRegistry {
  import opened Lists
  import opened Routing

  type Registry = seq<Handle>

  /** `connectionMade`: the new protocol is appended; the entries already there stay put. */
  function Connect(clients: Registry, conn: Handle): (r: Registry)
    ensures |r| == |clients| + 1 && r[..|clients|] == clients && r[|clients|] == conn
    ensures multiset(r) == multiset(clients) + multiset{conn}
  {
    clients + [conn]
  }

  /** `connectionLost`: `clients.remove(self)`, which raises `ValueError` when the protocol
      is not registered and otherwise takes out its first entry. */
  function Disconnect(clients: Registry, conn: Handle): (r: Result<Registry>)
    ensures r.Err? <==> conn !in clients
    ensures r.Err? ==> r.error == ValueError
    ensures r.Ok? ==> |r.value| == |clients| - 1
    ensures r.Ok? ==> multiset(r.value) == multiset(clients) - multiset{conn}
    ensures r.Ok? ==> exists i ::
      && 0 <= i < |clients| && clients[i] == conn && conn !in clients[..i]
      && r.value == clients[..i] + clients[i + 1..]
  {
    match Remove(clients, conn)
    case None => Err(ValueError)
    case Some(rest) => Ok(rest)
  }

  /** A client that connects and then disconnects leaves the registry as it found it. */
  lemma ConnectThenDisconnect(clients: Registry, conn: Handle)
    requires conn !in clients
    ensures Disconnect(Connect(clients, conn), conn) == Ok(clients)
  {
    RemoveFirstAfterAppend(clients, conn);
  }

  /** Each protocol is registered at most once: connecting a new protocol and disconnecting
      any protocol keep the registry free of duplicates, and a disconnected protocol is gone. */
  lemma RegistryStaysDistinct(clients: Registry, conn: Handle, gone: Handle)
    requires NoDup(clients) && conn !in clients
    ensures NoDup(Connect(clients, conn))
    ensures Disconnect(clients, gone).Ok? ==>
      NoDup(Disconnect(clients, gone).value) && gone !in Disconnect(clients, gone).value
  {
    RemoveFirstKeepsNoDup(clients, gone);
  }
}

=== FILE: lists.dfy ===
/** Python `list` operations used by the connection registries: append, `remove`,
    and the "first match" search that `for`-loops with an early `return` perform. */
module Lists {
  import opened Options

  /** No element occurs twice. */
  predicate NoDup<T(==)>(s: seq<T>) {
    forall i, j :: 0 <= i < j < |s| ==> s[i] != s[j]
  }

  /** Index of the first occurrence of `x` in `s`, as a left-to-right scan finds it. */
  function FirstIndex<T(==)>(s: seq<T>, x: T): (r: Option<nat>)
    ensures r.None? ==> forall k :: 0 <= k < |s| ==> s[k] != x
    ensures r.Some? ==> r.value < |s| && s[r.value] == x
    ensures r.Some? ==> forall k :: 0 <= k < r.value ==> s[k] != x
  {
    if |s| == 0 then None
    else if s[0] == x then Some(0)
    else match FirstIndex(s[1..], x)
      case None => None
      case Some(i) => Some(i + 1)
  }

  /** `x in s` exactly when the scan finds it. */
  lemma FirstIndexFinds<T>(s: seq<T>, x: T)
    ensures FirstIndex(s, x).Some? <==> x in s
  {
  }

  /** `s` with its first occurrence of `x` deleted; `s` itself when `x` is absent. */
  function RemoveFirst<T(==)>(s: seq<T>, x: T): (r: seq<T>)
    ensures x in s ==> |r| == |s| - 1
    ensures x !in s ==> r == s
  {
    if |s| == 0 then s
    else if s[0] == x then
      assert s == [s[0]] + s[1..];
      s[1..]
    else
      assert s == [s[0]] + s[1..];
      [s[0]] + RemoveFirst(s[1..], x)
  }

  /** The element removed is the first occurrence: what precedes it and what follows it stay in order. */
  lemma {:induction false} RemoveFirstAt<T>(s: seq<T>, x: T, i: nat)
    requires FirstIndex(s, x) == Some(i)
    ensures RemoveFirst(s, x) == s[..i] + s[i + 1..]
    decreases |s|
  {
    if s[0] == x {
      assert s[..i] + s[i + 1..] == s[1..];
    } else {
      var t := s[1..];
      assert FirstIndex(t, x) == Some(i - 1);
      RemoveFirstAt(t, x, i - 1);
      assert RemoveFirst(s, x) == [s[0]] + RemoveFirst(t, x);
      assert t[..i - 1] == s[1..i] && t[i..] == s[i + 1..];
      assert s[..i] == [s[0]] + s[1..i];
    }
  }

  /** `list.remove(x)`: removes the first occurrence, or raises `ValueError` (here `None`)
      when `x` is not in the list. */
  function Remove<T(==)>(s: seq<T>, x: T): (r: Option<seq<T>>)
    ensures r.None? <==> x !in s
    ensures r.Some? ==> |r.value| == |s| - 1 && multiset(r.value) == multiset(s) - multiset{x}
    ensures r.Some? ==> exists i :: 0 <= i < |s| && s[i] == x && x !in s[..i] && r.value == s[..i] + s[i + 1..]
  {
    if x in s then
      RemoveFirstMultiset(s, x);
      RemoveFirstKeepsOrder(s, x);
      Some(RemoveFirst(s, x))
    else None
  }

  /** Removal cuts the list at the first occurrence and keeps both sides in order. */
  lemma RemoveFirstKeepsOrder<T>(s: seq<T>, x: T)
    requires x in s
    ensures exists i :: 0 <= i < |s| && s[i] == x && x !in s[..i] && RemoveFirst(s, x) == s[..i] + s[i + 1..]
  {
    FirstIndexFinds(s, x);
    var i := FirstIndex(s, x).value;
    RemoveFirstAt(s, x, i);
    assert x !in s[..i] by {
      forall k | 0 <= k < i ensures s[..i][k] != x { }
    }
  }

  /** Removal takes away one copy of `x` and nothing else. */
  lemma {:induction false} RemoveFirstMultiset<T>(s: seq<T>, x: T)
    ensures multiset(RemoveFirst(s, x)) == multiset(s) - multiset{x}
  {
    match FirstIndex(s, x)
    case None =>
    case Some(i) =>
      RemoveFirstAt(s, x, i);
      assert s == s[..i] + [x] + s[i + 1..];
      assert multiset(s) == multiset(s[..i]) + multiset{x} + multiset(s[i + 1..]);
  }

  /** Removing an element that was just appended, and was not there before, restores the list. */
  lemma {:induction false} RemoveFirstAfterAppend<T>(s: seq<T>, x: T)
    requires x !in s
    ensures RemoveFirst(s + [x], x) == s
  {
    assert (s + [x])[..|s|] == s;
    forall k | 0 <= k < |s| ensures (s + [x])[k] != x {
      assert s[k] in s;
    }
    assert (s + [x])[|s|] == x;
    RemoveFirstAt(s + [x], x, |s|);
  }

  /** Removing an element keeps a duplicate-free list duplicate-free. */
  lemma {:induction false} RemoveFirstKeepsNoDup<T>(s: seq<T>, x: T)
    requires NoDup(s)
    ensures NoDup(RemoveFirst(s, x))
    ensures x !in RemoveFirst(s, x)
  {
    var r := RemoveFirst(s, x);
    if x in s {
      var i := FirstIndex(s, x).value;
      RemoveFirstAt(s, x, i);
      forall a, b | 0 <= a < b < |r| ensures r[a] != r[b] {
        var a' := if a < i then a else a + 1;
        var b' := if b < i then b else b + 1;
        assert r[a] == s[a'] && r[b] == s[b'];
      }
      forall k | 0 <= k < |r| ensures r[k] != x {
        var k' := if k < i then k else k + 1;
        assert r[k] == s[k'];
      }
    } else {
      assert r == s;
    }
  }

  /** From a duplicate-free list, removal takes away exactly `x`. */
  lemma RemoveFirstMembers<T>(s: seq<T>, x: T, y: T)
    requires NoDup(s)
    ensures y in RemoveFirst(s, x) <==> y in s && y != x
  {
    RemoveFirstMultiset(s, x);
    RemoveFirstKeepsNoDup(s, x);
    assert y in RemoveFirst(s, x) <==> y in multiset(RemoveFirst(s, x));
    assert y in s <==> y in multiset(s);
  }
}

=== FILE: node.dfy ===
/** The relay with numeric client IDs: a list registry, the network commands `/disconnect`,
    `/exit` and `/send <id> <message>`, everything else relayed to the other clients, and a
    console that adds `/connect <ip> <port>`. A protocol's ID is `id(self)`, which CPython
    keeps distinct among live objects, so here the ID is the protocol's handle. */
module Node {
  import opened Options
  import opened Lists
  import opened PyText
  import opened Routing
  import opened ListRegistry

  const DisconnectToken := "/disconnect"
  const ExitToken := "/exit"
  const SendToken := "/send"
  const ConnectToken := "/connect"

  const WelcomePrefix := "Welcome! Your client ID is "
  const SendUsage := "Invalid command usage. Use /send <client_id> <message>"
  const ConnectUsage := "Invalid command usage. Use /connect <ip> <port>"
  const UnknownConsoleCommand := "Unknown command. Type '/exit' to stop the server."

  function NotFound(id: int): string {
    "Client with ID " + IntToString(id) + " not found."
  }

  /** A new connection: the registry after `connectionMade`, and the welcome line it sends. */
  datatype Joined = Joined(registry: Registry, welcome: Delivery)

  /** `connectionMade`: the protocol is appended to the registry and only it is sent a
      welcome line whose tail is its ID, written so that `int()` reads it back. */
  function Connect(clients: Registry, id: Handle): (r: Joined)
    ensures r.registry == ListRegistry.Connect(clients, id)
    ensures r.welcome.to == id && r.welcome.line.Text?
    ensures StartsWith(r.welcome.line.text, WelcomePrefix)
    ensures ParseInt(SliceFrom(r.welcome.line.text, |WelcomePrefix|)) == Some(id)
  {
    var text := WelcomePrefix + IntToString(id);
    assert text[..|WelcomePrefix|] == WelcomePrefix;
    assert text[|WelcomePrefix|..] == IntToString(id);
    ParseIntToString(id);
    Joined(ListRegistry.Connect(clients, id), Delivery(id, Text(text)))
  }

  // ---------------------------------------------------------------- network lines

  /** The branch of `lineReceived` a line takes. */
  datatype Command = DisconnectCmd | ExitCmd | SendCmd | ChatLine

  const Tokens := [DisconnectToken, ExitToken, SendToken]

  lemma TokensPrefixFree()
    ensures PrefixFree(Tokens)
  {
    PrefixFreeBySecondChar(Tokens);
  }

  /** `lineReceived` tests `/disconnect`, `/exit`, `/send` in that order; because no token
      starts another, each branch is taken exactly when the line starts with its token. */
  function Classify(line: string): (c: Command)
    ensures c == DisconnectCmd <==> StartsWith(line, DisconnectToken)
    ensures c == ExitCmd <==> StartsWith(line, ExitToken)
    ensures c == SendCmd <==> StartsWith(line, SendToken)
  {
    TokensPrefixFree();
    PrefixesExclusive(Tokens, line);
    assert Tokens[0] == DisconnectToken && Tokens[1] == ExitToken && Tokens[2] == SendToken;
    if StartsWith(line, DisconnectToken) then DisconnectCmd
    else if StartsWith(line, ExitToken) then ExitCmd
    else if StartsWith(line, SendToken) then SendCmd
    else ChatLine
  }

  /** `sendToClient`: the message goes to the first registered client with that ID and to
      no one else; with no such client the sender alone is told so. */
  function SendToClient(clients: Registry, sender: Handle, id: int, message: string): (r: Reaction)
    ensures r.effect == NoEffect && |r.deliveries| == 1
    ensures id in clients ==> r.deliveries[0] == Delivery(id as nat, Text(message))
    ensures id !in clients ==> r.deliveries[0] == Delivery(sender, Text(NotFound(id)))
  {
    var ids: seq<int> := clients;
    match FirstIndex(ids, id)
    case Some(k) => Reaction([Delivery(clients[k], Text(message))], NoEffect)
    case None => Reply(sender, NotFound(id))
  }

  /** The `/send` branch: `split(" ", 2)` must give three parts and the middle one must be
      an integer. A usage reply is passed to `sendLine` as `str`, which raises `TypeError`;
      a non-numeric ID makes `int()` raise `ValueError`. */
  function SendCommand(clients: Registry, sender: Handle, line: string): (r: Result<Reaction>)
    ensures var parts := SplitN(line, ' ', 2);
      && (|parts| != 3 ==> r == Err(TypeError))
      && (|parts| == 3 && ParseInt(parts[1]).None? ==> r == Err(ValueError))
      && (|parts| == 3 && ParseInt(parts[1]).Some? ==>
            r == Ok(SendToClient(clients, sender, ParseInt(parts[1]).value, parts[2])))
  {
    var parts := SplitN(line, ' ', 2);
    if |parts| == 3 then
      match ParseInt(parts[1])
      case None => Err(ValueError)
      case Some(id) => Ok(SendToClient(clients, sender, id, parts[2]))
    else Err(TypeError)
  }

  /** `lineReceived` on a network connection. Lines never change the registry. */
  function LineReceived(clients: Registry, sender: Handle, line: string): (r: Result<Reaction>)
    ensures StartsWith(line, DisconnectToken) ==> r == Ok(Reaction([], LoseConnection(sender)))
    ensures StartsWith(line, ExitToken) ==> r == Ok(Reaction([], StopReactor))
    ensures StartsWith(line, SendToken) ==> r == SendCommand(clients, sender, line)
    ensures Classify(line) == ChatLine ==>
      && r.Ok? && r.value.effect == NoEffect
      && Recipients(r.value.deliveries) == Others(clients, sender)
      && (forall k :: 0 <= k < |r.value.deliveries| ==>
            r.value.deliveries[k].line == Text(line) && r.value.deliveries[k].to != sender)
  {
    match Classify(line)
    case DisconnectCmd => Ok(Reaction([], LoseConnection(sender)))
    case ExitCmd => Ok(Reaction([], StopReactor))
    case SendCmd => SendCommand(clients, sender, line)
    case ChatLine =>
      var targets := Others(clients, sender);
      assert forall k :: 0 <= k < |targets| ==> targets[k] != sender by {
        forall k | 0 <= k < |targets| ensures targets[k] != sender {
          assert targets[k] in multiset(targets);
        }
      }
      Ok(Reaction(SendAll(targets, Text(line)), NoEffect))
  }

  /** `/send <id> <message>` with a registered ID delivers the whole message, spaces and
      all, to that client only. */
  lemma SendReachesAddressee(clients: Registry, sender: Handle, id: Handle, message: string)
    requires id in clients
    ensures LineReceived(clients, sender, SendToken + " " + IntToString(id) + " " + message)
      == Ok(Reaction([Delivery(id, Text(message))], NoEffect))
  {
    SendLineParts(id, message);
  }

  /** An ID opened by one of the separators U+001C to U+001F is not a number to `int()`,
      so `/send` raises `ValueError` even when the digits after it name a client. */
  lemma SendSeparatorRaises(clients: Registry, sender: Handle, digits: string, message: string)
    requires Lacks(digits, ' ')
    ensures var id := [0x1c as char] + digits;
      LineReceived(clients, sender, SendToken + " " + id + " " + message) == Err(ValueError)
  {
    var id := [0x1c as char] + digits;
    var line := SendToken + " " + id + " " + message;
    assert line[..|SendToken|] == SendToken;
    assert Lacks(id, ' ') by {
      assert forall k :: 1 <= k < |id| ==> id[k] == digits[k - 1];
    }
    SplitThree(SendToken, id, message, ' ');
    ParseIntRejectsSeparator(digits);
  }

  /** How `lineReceived` reads a `/send` line it was given: the token, then the ID that
      `int()` reads back, then the message untouched. */
  lemma SendLineParts(id: int, message: string)
    ensures var line := SendToken + " " + IntToString(id) + " " + message;
      && StartsWith(line, SendToken)
      && SplitN(line, ' ', 2) == [SendToken, IntToString(id), message]
      && ParseInt(IntToString(id)) == Some(id)
  {
    var line := SendToken + " " + IntToString(id) + " " + message;
    assert line[..|SendToken|] == SendToken;
    SplitThree(SendToken, IntToString(id), message, ' ');
    ParseIntToString(id);
  }

  /** The ID a client is told in its welcome line addresses that client: another client
      that sends `/send <that ID> <message>` reaches it. */
  lemma WelcomeIdAddresses(clients: Registry, id: Handle, sender: Handle, message: string)
    ensures var j := Connect(clients, id);
      var told := SliceFrom(j.welcome.line.text, |WelcomePrefix|);
      LineReceived(j.registry, sender, SendToken + " " + told + " " + message)
        == Ok(Reaction([Delivery(id, Text(message))], NoEffect))
  {
    var j := Connect(clients, id);
    assert j.welcome.line.text[|WelcomePrefix|..] == IntToString(id);
    assert id in j.registry by {
      assert j.registry[|clients|] == id;
    }
    SendReachesAddressee(j.registry, sender, id, message);
  }

  // ---------------------------------------------------------------- console

  /** The prompt is written again after the command was handled. */
  function Prompted(r: Result<ConsoleReaction>): (p: Result<ConsoleReaction>)
    ensures p.Ok? <==> r.Ok?
    ensures p.Ok? ==> p.value == r.value.(prompt := true)
    ensures r.Err? ==> p == r
  {
    match r
    case Ok(v) => Ok(v.(prompt := true))
    case Err(e) => Err(e)
  }

  /** `connectToServer`: `/connect <ip> <port>` by `split(" ", 2)`; the port goes through
      `int()`, then the reactor is asked to connect. */
  function ConnectToServer(command: string): (r: Result<ConsoleReaction>)
    ensures var parts := SplitN(command, ' ', 2);
      && (|parts| != 3 ==> r == Ok(ConsoleReaction([], [ConnectUsage], NoEffect, false)))
      && (|parts| == 3 && ParseInt(parts[2]).None? ==> r == Err(ValueError))
      && (|parts| == 3 && ParseInt(parts[2]).Some? ==>
            r.Ok? && r.value.deliveries == [] && r.value.effect == ConnectTcp(parts[1], ParseInt(parts[2]).value))
  {
    var parts := SplitN(command, ' ', 2);
    if |parts| == 3 then
      match ParseInt(parts[2])
      case None => Err(ValueError)
      case Some(port) =>
        Ok(ConsoleReaction([], ["Connecting to " + parts[1] + ":" + IntToString(port) + "..."],
                           ConnectTcp(parts[1], port), false))
    else Ok(ConsoleReaction([], [ConnectUsage], NoEffect, false))
  }

  /** The console `/send`: like the network one, but the outcome is printed, a usage error
      is printed rather than raised, and a successful send returns before the prompt. */
  function ConsoleSend(clients: Registry, command: string): (r: Result<ConsoleReaction>)
    ensures var parts := SplitN(command, ' ', 2);
      && (|parts| != 3 ==> r == Ok(ConsoleReaction([], [SendUsage], NoEffect, true)))
      && (|parts| == 3 && ParseInt(parts[1]).None? ==> r == Err(ValueError))
      && (|parts| == 3 && ParseInt(parts[1]).Some? ==>
            (var id := ParseInt(parts[1]).value;
             && r.Ok?
             && (id in clients ==> r.value == ConsoleReaction([Delivery(id as nat, Text(parts[2]))], [], NoEffect, false))
             && (id !in clients ==> r.value == ConsoleReaction([], [NotFound(id)], NoEffect, true))))
  {
    var parts := SplitN(command, ' ', 2);
    if |parts| == 3 then
      match ParseInt(parts[1])
      case None => Err(ValueError)
      case Some(id) =>
        var ids: seq<int> := clients;
        match FirstIndex(ids, id)
        case Some(k) => Ok(ConsoleReaction([Delivery(clients[k], Text(parts[2]))], [], NoEffect, false))
        case None => Ok(ConsoleReaction([], [NotFound(id)], NoEffect, true))
    else Ok(ConsoleReaction([], [SendUsage], NoEffect, true))
  }

  const ConsoleTokens := [ConnectToken, ExitToken, SendToken]

  /** `ChatConsoleProtocol.dataReceived`: the input is stripped of ASCII whitespace first;
      `/connect` and `/send` are prefixes, but `/exit` must be the whole input. */
  function ConsoleDataReceived(clients: Registry, data: string): (r: Result<ConsoleReaction>)
    ensures var command := Strip(data, IsByteSpace);
      && (StartsWith(command, ConnectToken) ==> r == Prompted(ConnectToServer(command)))
      && (command == ExitToken ==> r == Ok(ConsoleReaction([], [], StopReactor, true)))
      && (StartsWith(command, SendToken) ==> r == ConsoleSend(clients, command))
      && (!StartsWith(command, ConnectToken) && !StartsWith(command, SendToken) && command != ExitToken ==>
            r == Ok(ConsoleReaction([], [UnknownConsoleCommand], NoEffect, true)))
  {
    var command := Strip(data, IsByteSpace);
    PrefixFreeBySecondChar(ConsoleTokens);
    PrefixesExclusive(ConsoleTokens, command);
    assert ConsoleTokens[0] == ConnectToken && ConsoleTokens[1] == ExitToken && ConsoleTokens[2] == SendToken;
    assert command == ExitToken ==> StartsWith(command, ExitToken);
    if StartsWith(command, ConnectToken) then Prompted(ConnectToServer(command))
    else if command == ExitToken then Ok(ConsoleReaction([], [], StopReactor, true))
    else if StartsWith(command, SendToken) then ConsoleSend(clients, command)
    else Ok(ConsoleReaction([], [UnknownConsoleCommand], NoEffect, true))
  }

  /** A command that neither starts nor ends with whitespace reaches the console as typed. */
  lemma TypedAsIs(command: string, token: string)
    requires StartsWith(command, token) && |token| > 0 && !IsByteSpace(token[0])
    requires !IsByteSpace(command[|command| - 1])
    ensures Strip(command, IsByteSpace) == command
  {
    assert command[0] == token[0];
    StripKeeps(command, IsByteSpace);
  }

  lemma ConnectCommandDials(ip: string, port: nat)
    requires Lacks(ip, ' ')
    ensures var r := ConnectToServer(ConnectToken + " " + ip + " " + IntToString(port));
      r.Ok? && r.value.effect == ConnectTcp(ip, port) && r.value.deliveries == []
  {
    var p := IntToString(port);
    assert ConnectToken + " " + ip + " " + p == ConnectToken + [' '] + ip + [' '] + p;
    SplitThree(ConnectToken, ip, p, ' ');
    ParseIntToString(port);
  }

  /** `/connect <ip> <port>` typed on the console asks the reactor to connect to exactly
      that address. */
  lemma ConnectDialsGivenAddress(clients: Registry, ip: string, port: nat)
    requires Lacks(ip, ' ')
    ensures var r := ConsoleDataReceived(clients, ConnectToken + " " + ip + " " + IntToString(port));
      r.Ok? && r.value.effect == ConnectTcp(ip, port) && r.value.deliveries == [] && r.value.prompt
  {
    var p := IntToString(port);
    var command := ConnectToken + " " + ip + " " + p;
    assert command[..|ConnectToken|] == ConnectToken;
    assert command[|command| - 1] == p[|p| - 1];
    TypedAsIs(command, ConnectToken);
    ConnectCommandDials(ip, port);
  }

  lemma ConsoleSendCommand(clients: Registry, id: Handle, message: string)
    requires id in clients
    ensures ConsoleSend(clients, SendToken + " " + IntToString(id) + " " + message)
      == Ok(ConsoleReaction([Delivery(id, Text(message))], [], NoEffect, false))
  {
    assert SendToken + " " + IntToString(id) + " " + message
      == SendToken + [' '] + IntToString(id) + [' '] + message;
    SplitThree(SendToken, IntToString(id), message, ' ');
    ParseIntToString(id);
  }

  /** `/send <id> <message>` typed on the console, with a registered ID and a message that
      does not end in whitespace, delivers the message to that client and skips the prompt. */
  lemma ConsoleSendReachesAddressee(clients: Registry, id: Handle, message: string)
    requires id in clients && |message| > 0 && !IsByteSpace(message[|message| - 1])
    ensures ConsoleDataReceived(clients, SendToken + " " + IntToString(id) + " " + message)
      == Ok(ConsoleReaction([Delivery(id, Text(message))], [], NoEffect, false))
  {
    var command := SendToken + " " + IntToString(id) + " " + message;
    assert command[..|SendToken|] == SendToken;
    assert command[|command| - 1] == message[|message| - 1];
    TypedAsIs(command, SendToken);
    ConsoleSendCommand(clients, id, message);
  }

  /** On the console `/exit` is matched exactly, so `/exit now` is an unknown command,
      while on a network connection any line starting with `/exit` stops the reactor. */
  lemma ExitMatchesExactlyOnConsole(clients: Registry, sender: Handle)
    ensures ConsoleDataReceived(clients, "/exit now") == Ok(ConsoleReaction([], [UnknownConsoleCommand], NoEffect, true))
    ensures LineReceived(clients, sender, "/exit now") == Ok(Reaction([], StopReactor))
  {
    var s := "/exit now";
    assert !IsByteSpace(s[0]) && !IsByteSpace(s[|s| - 1]);
    StripKeeps(s, IsByteSpace);
    assert !StartsWith(s, ConnectToken) by { assert s[1] != ConnectToken[1]; }
    assert !StartsWith(s, SendToken) by { assert s[1] != SendToken[1]; }
    assert StartsWith(s, ExitToken) by { assert s[..|ExitToken|] == ExitToken; }
  }

  /** Surrounding whitespace never changes what the console does. */
  lemma ConsoleStripsFirst(clients: Registry, data: string)
    ensures ConsoleDataReceived(clients, Strip(data, IsByteSpace)) == ConsoleDataReceived(clients, data)
  {
    StripIdempotent(data, IsByteSpace);
  }
}

=== FILE: options.dfy ===
/** Python's `None`-or-value, for the lookups and parses that can come back empty. */
module Options {
  datatype Option<+T> = None | Some(value: T)
}

=== FILE: pydict.dfy ===
/** A Python `dict` with string keys, as the keyed relay uses it: entries keep the order
    in which their keys were first inserted, assigning to a present key keeps its place,
    `get` answers `None` for a missing key, and `del` of a missing key raises `KeyError`. */
module PyDict {
  import opened Options
  import opened Lists

  /** The keys in insertion order, and the entries. */
  datatype DictRep<V> = DictRep(order: seq<string>, entries: map<string, V>)

  /** The order lists every key of the entries exactly once, and nothing else. */
  predicate Valid<V>(d: DictRep<V>) {
    && NoDup(d.order)
    && (forall k :: 0 <= k < |d.order| ==> d.order[k] in d.entries)
    && (forall key :: key in d.entries ==> key in d.order)
  }

  type Dict<V> = d: DictRep<V> | Valid(d) witness DictRep([], map[])

  function Empty<V>(): (d: Dict<V>)
    ensures d.entries == map[]
  {
    DictRep([], map[])
  }

  /** `d[key] = v`. */
  function Set<V>(d: Dict<V>, key: string, v: V): (r: Dict<V>)
    ensures r.entries == d.entries[key := v]
    ensures key in d.entries ==> r.order == d.order
    ensures key !in d.entries ==> r.order == d.order + [key]
  {
    if key in d.entries then
      DictRep(d.order, d.entries[key := v])
    else
      var order := d.order + [key];
      assert forall k :: 0 <= k < |d.order| ==> order[k] == d.order[k];
      DictRep(order, d.entries[key := v])
  }

  /** `d.get(key)`. */
  function Get<V>(d: Dict<V>, key: string): (r: Option<V>)
    ensures r.Some? <==> key in d.entries
    ensures r.Some? ==> r.value == d.entries[key]
  {
    if key in d.entries then Some(d.entries[key]) else None
  }

  /** `del d[key]`; `None` stands for the `KeyError` raised when the key is absent. */
  function Delete<V>(d: Dict<V>, key: string): (r: Option<Dict<V>>)
    ensures r.None? <==> key !in d.entries
    ensures r.Some? ==> r.value.entries == d.entries - {key}
    ensures r.Some? ==> multiset(r.value.order) == multiset(d.order) - multiset{key}
    ensures r.Some? ==> exists i ::
      && 0 <= i < |d.order| && d.order[i] == key
      && r.value.order == d.order[..i] + d.order[i + 1..]
  {
    if key in d.entries then
      DeleteValid(d, key);
      Some(DictRep(RemoveFirst(d.order, key), d.entries - {key}))
    else None
  }

  /** Cutting a present key out of the order and its entry out of the map leaves a valid
      dict whose order is the old one with that key taken out where it stood. */
  lemma DeleteValid<V>(d: Dict<V>, key: string)
    requires key in d.entries
    ensures Valid(DictRep(RemoveFirst(d.order, key), d.entries - {key}))
    ensures multiset(RemoveFirst(d.order, key)) == multiset(d.order) - multiset{key}
    ensures exists i ::
      && 0 <= i < |d.order| && d.order[i] == key
      && RemoveFirst(d.order, key) == d.order[..i] + d.order[i + 1..]
  {
    var order := RemoveFirst(d.order, key);
    RemoveFirstKeepsOrder(d.order, key);
    var entries := d.entries - {key};
    RemoveFirstMultiset(d.order, key);
    RemoveFirstKeepsNoDup(d.order, key);
    forall k | 0 <= k < |order| ensures order[k] in entries {
      RemoveFirstMembers(d.order, key, order[k]);
    }
    forall other | other in entries ensures other in order {
      RemoveFirstMembers(d.order, key, other);
    }
  }

  /** `d.values()`, in insertion order. */
  function Values<V>(d: Dict<V>): (vs: seq<V>)
    ensures |vs| == |d.order|
    ensures forall k :: 0 <= k < |vs| ==> vs[k] == d.entries[d.order[k]]
  {
    seq(|d.order|, k requires 0 <= k < |d.order| => d.entries[d.order[k]])
  }

  /** Reading a key back after assigning it gives the assigned value; other keys read as
      before. */
  lemma GetAfterSet<V>(d: Dict<V>, key: string, v: V, other: string)
    ensures Get(Set(d, key, v), key) == Some(v)
    ensures other != key ==> Get(Set(d, key, v), other) == Get(d, other)
  {
  }

  /** After `del d[key]` the key reads as missing; other keys read as before. */
  lemma GetAfterDelete<V>(d: Dict<V>, key: string, other: string)
    requires key in d.entries
    ensures Get(Delete(d, key).value, key) == None
    ensures other != key ==> Get(Delete(d, key).value, other) == Get(d, other)
  {
  }

  /** Inserting a fresh key and deleting it again restores the dict, order included. */
  lemma DeleteAfterSetFresh<V>(d: Dict<V>, key: string, v: V)
    requires key !in d.entries
    ensures Delete(Set(d, key, v), key) == Some(d)
  {
    assert key !in d.order;
    RemoveFirstAfterAppend(d.order, key);
    assert d.entries[key := v] - {key} == d.entries;
  }

  /** Every entry sits at exactly one position of the order, so `values()` yields each
      entry's value once. */
  lemma {:induction false} EachKeyOnce<V>(d: Dict<V>, key: string)
    requires key in d.entries
    ensures exists k :: 0 <= k < |d.order| && d.order[k] == key
    ensures forall k, k' :: 0 <= k < |d.order| && 0 <= k' < |d.order| && d.order[k] == key && d.order[k'] == key ==> k == k'
  {
    var i := FirstIndex(d.order, key);
    FirstIndexFinds(d.order, key);
    assert d.order[i.value] == key;
  }
}

=== FILE: pytext.dfy ===
/** The Python 3 `str` operations the chat servers use to take a line apart:
    `startswith`, `strip`, `split(sep[, maxsplit])`, slicing, `int(...)` and `str(n)`. */
module PyText {
  import opened Options
  import opened Lists

  /** `s.startswith(p)`. */
  predicate StartsWith(s: string, p: string) {
    |p| <= |s| && s[..|p|] == p
  }

  /** Two prefixes of one string agree: the shorter one starts the longer one. */
  lemma PrefixesAgree(s: string, p: string, q: string)
    requires StartsWith(s, p) && StartsWith(s, q) && |p| <= |q|
    ensures StartsWith(q, p)
  {
    assert forall k :: 0 <= k < |p| ==> q[k] == s[k] == p[k];
  }

  /** No word of the list starts another: a set of command tokens that can be tried in
      any order. */
  predicate PrefixFree(words: seq<string>) {
    forall i, j :: 0 <= i < |words| && 0 <= j < |words| && i != j ==> !StartsWith(words[j], words[i])
  }

  /** Tokens that differ in their second character start no other token. */
  lemma PrefixFreeBySecondChar(words: seq<string>)
    requires forall i :: 0 <= i < |words| ==> |words[i]| >= 2
    requires forall i, j :: 0 <= i < j < |words| ==> words[i][1] != words[j][1]
    ensures PrefixFree(words)
  {
  }

  /** Against a prefix-free list of tokens, a line starts with at most one of them. */
  lemma {:induction false} AtMostOnePrefix(words: seq<string>, s: string, i: nat, j: nat)
    requires PrefixFree(words)
    requires i < |words| && j < |words|
    requires StartsWith(s, words[i]) && StartsWith(s, words[j])
    ensures i == j
  {
    if i != j {
      if |words[i]| <= |words[j]| {
        PrefixesAgree(s, words[i], words[j]);
      } else {
        PrefixesAgree(s, words[j], words[i]);
      }
    }
  }

  /** In a prefix-free list, at most one word starts a given string. */
  lemma PrefixesExclusive(words: seq<string>, s: string)
    requires PrefixFree(words)
    ensures forall i, j :: 0 <= i < |words| && 0 <= j < |words| && StartsWith(s, words[i]) && StartsWith(s, words[j]) ==> i == j
  {
    forall i, j | 0 <= i < |words| && 0 <= j < |words| && StartsWith(s, words[i]) && StartsWith(s, words[j])
      ensures i == j
    {
      AtMostOnePrefix(words, s, i, j);
    }
  }


  /** `s[n:]`: the suffix from index `n`, empty when `n` is past the end. */
  function SliceFrom(s: string, n: nat): (r: string)
    ensures n <= |s| ==> s == s[..n] + r
    ensures n >= |s| ==> r == []
  {
    if n <= |s| then s[n..] else []
  }

  /** A character for which `str.isspace()` holds: what `str.strip()` skips. */
  predicate IsStrSpace(c: char) {
    var n := c as int;
    n == 0x20 || 0x09 <= n <= 0x0d || 0x1c <= n <= 0x1f || n == 0x85 || n == 0xa0
    || n == 0x1680 || 0x2000 <= n <= 0x200a || n == 0x2028 || n == 0x2029
    || n == 0x202f || n == 0x205f || n == 0x3000
  }

  /** What `int()` skips around a literal. Non-ASCII whitespace is first turned into a
      space, but ASCII characters are kept as they are and then only the ASCII whitespace
      is skipped, so the separators U+001C to U+001F, which `str.isspace()` accepts, make
      `int()` raise. */
  predicate IsIntSpace(c: char) {
    IsStrSpace(c) && !(0x1c <= c as int <= 0x1f)
  }

  /** An ASCII whitespace byte: what `bytes.strip()` skips. */
  predicate IsByteSpace(c: char) {
    var n := c as int;
    n == 0x20 || 0x09 <= n <= 0x0d
  }

  /** How many characters satisfying `ws` open `s`. */
  function LeadingRun(s: string, ws: char -> bool): (n: nat)
    ensures n <= |s|
    ensures forall k :: 0 <= k < n ==> ws(s[k])
    ensures n < |s| ==> !ws(s[n])
    decreases |s|
  {
    if |s| > 0 && ws(s[0]) then 1 + LeadingRun(s[1..], ws) else 0
  }

  /** How many characters satisfying `ws` close `s`. */
  function TrailingRun(s: string, ws: char -> bool): (n: nat)
    ensures n <= |s|
    ensures forall k :: |s| - n <= k < |s| ==> ws(s[k])
    ensures n < |s| ==> !ws(s[|s| - 1 - n])
    decreases |s|
  {
    if |s| > 0 && ws(s[|s| - 1]) then 1 + TrailingRun(s[..|s| - 1], ws) else 0
  }

  /** `strip()`: `Strip(s, IsStrSpace)` is `str.strip()`, `Strip(s, IsByteSpace)` is
      `bytes.strip()` read back as text. The result is the infix of `s` left after taking
      away the whitespace at both ends, and it neither starts nor ends with whitespace. */
  function Strip(s: string, ws: char -> bool): (r: string)
    ensures var i := LeadingRun(s, ws);
      && i + |r| <= |s| && r == s[i..i + |r|]
      && forall k :: i + |r| <= k < |s| ==> ws(s[k])
    ensures r == [] || (!ws(r[0]) && !ws(r[|r| - 1]))
  {
    var i := LeadingRun(s, ws);
    if i == |s| then []
    else
      s[i..|s| - TrailingRun(s, ws)]
  }

  /** A string that does not start or end with whitespace is left alone by `strip`. */
  lemma StripKeeps(s: string, ws: char -> bool)
    requires s == [] || (!ws(s[0]) && !ws(s[|s| - 1]))
    ensures Strip(s, ws) == s
  {
  }

  lemma {:induction false} LeadingRunPad(pad: string, s: string, ws: char -> bool)
    requires forall k :: 0 <= k < |pad| ==> ws(pad[k])
    ensures LeadingRun(pad + s, ws) == |pad| + LeadingRun(s, ws)
  {
    if |pad| == 0 {
      assert pad + s == s;
    } else {
      assert (pad + s)[1..] == pad[1..] + s;
      LeadingRunPad(pad[1..], s, ws);
    }
  }

  /** Whitespace in front of a string that does not start or end with whitespace is all
      that `strip` removes. */
  lemma StripPadded(pad: string, s: string, ws: char -> bool)
    requires forall k :: 0 <= k < |pad| ==> ws(pad[k])
    requires s == [] || (!ws(s[0]) && !ws(s[|s| - 1]))
    ensures Strip(pad + s, ws) == s
  {
    LeadingRunPad(pad, s, ws);
    if s == [] {
      assert pad + s == pad;
    } else {
      assert (pad + s)[|pad| + |s| - 1] == s[|s| - 1];
      assert (pad + s)[|pad|..|pad| + |s|] == s;
    }
  }

  /** Stripping twice is stripping once. */
  lemma StripIdempotent(s: string, ws: char -> bool)
    ensures Strip(Strip(s, ws), ws) == Strip(s, ws)
  {
    StripKeeps(Strip(s, ws), ws);
  }

  // ---------------------------------------------------------------- split

  /** `c` does not occur in `s`. */
  predicate Lacks(s: string, c: char) {
    forall k :: 0 <= k < |s| ==> s[k] != c
  }

  /** `sep.join(parts)`. */
  function Join(parts: seq<string>, sep: char): string
    decreases |parts|
  {
    if |parts| == 0 then []
    else if |parts| == 1 then parts[0]
    else parts[0] + [sep] + Join(parts[1..], sep)
  }

  /** `s.split(sep, maxsplit)` with an explicit one-character separator: cut at the first
      `maxsplit` separators, left to right; the remainder, separators and all, is the last part.
      Adjacent separators give empty parts. */
  function SplitN(s: string, sep: char, maxsplit: nat): (parts: seq<string>)
    ensures 1 <= |parts| <= maxsplit + 1
    decreases maxsplit
  {
    if maxsplit == 0 then [s]
    else match FirstIndex(s, sep)
      case None => [s]
      case Some(i) => [s[..i]] + SplitN(s[i + 1..], sep, maxsplit - 1)
  }

  /** `s.split(sep)` with no limit: no part contains the separator. */
  function SplitAll(s: string, sep: char): (parts: seq<string>)
    ensures 1 <= |parts|
    ensures forall k :: 0 <= k < |parts| ==> Lacks(parts[k], sep)
    decreases |s|
  {
    match FirstIndex(s, sep)
    case None => [s]
    case Some(i) =>
      var rest := SplitAll(s[i + 1..], sep);
      assert forall k :: 1 <= k < |rest| + 1 ==> ([s[..i]] + rest)[k] == rest[k - 1];
      [s[..i]] + rest
  }

  /** What a `split(sep, maxsplit)` result looks like, independently of how it is computed:
      the parts join back to `s`, only the last part may contain `sep`, and only when
      all `maxsplit` cuts were made. */
  predicate IsSplitN(s: string, sep: char, maxsplit: nat, parts: seq<string>) {
    && 1 <= |parts| <= maxsplit + 1
    && Join(parts, sep) == s
    && (forall k :: 0 <= k < |parts| - 1 ==> Lacks(parts[k], sep))
    && (|parts| < maxsplit + 1 ==> Lacks(parts[|parts| - 1], sep))
  }

  /** The first separator of `a + [sep] + b`, when `a` has none, is the one after `a`. */
  lemma FirstCut(a: string, sep: char, b: string)
    requires Lacks(a, sep)
    ensures FirstIndex(a + [sep] + b, sep) == Some(|a|)
  {
    var s := a + [sep] + b;
    assert s[|a|] == sep;
    assert forall k :: 0 <= k < |a| ==> s[k] == a[k];
  }

  /** `split(sep, maxsplit)` is exactly the list of parts of that shape: its result has the
      shape, and any list of that shape is its result. */
  lemma SplitNCharacterisation(s: string, sep: char, maxsplit: nat, parts: seq<string>)
    ensures parts == SplitN(s, sep, maxsplit) <==> IsSplitN(s, sep, maxsplit, parts)
  {
    SplitNShape(s, sep, maxsplit);
    if IsSplitN(s, sep, maxsplit, parts) {
      SplitNUnique(s, sep, maxsplit, parts);
    }
  }

  /** Where the first separator is, and a cut is still allowed, `split` cuts there. */
  lemma SplitNAt(s: string, sep: char, maxsplit: nat, i: nat)
    requires maxsplit > 0 && FirstIndex(s, sep) == Some(i)
    ensures s == s[..i] + [sep] + s[i + 1..]
    ensures SplitN(s, sep, maxsplit) == [s[..i]] + SplitN(s[i + 1..], sep, maxsplit - 1)
    ensures Lacks(s[..i], sep)
  {
  }

  lemma {:induction false} SplitNShape(s: string, sep: char, maxsplit: nat)
    ensures IsSplitN(s, sep, maxsplit, SplitN(s, sep, maxsplit))
    decreases maxsplit
  {
    var cut := FirstIndex(s, sep);
    if maxsplit > 0 && cut.Some? {
      SplitNShape(s[cut.value + 1..], sep, maxsplit - 1);
      SplitNShapeStep(s, sep, maxsplit, cut.value);
    }
  }

  lemma SplitNShapeStep(s: string, sep: char, maxsplit: nat, i: nat)
    requires maxsplit > 0 && FirstIndex(s, sep) == Some(i)
    requires IsSplitN(s[i + 1..], sep, maxsplit - 1, SplitN(s[i + 1..], sep, maxsplit - 1))
    ensures IsSplitN(s, sep, maxsplit, SplitN(s, sep, maxsplit))
  {
    SplitNAt(s, sep, maxsplit, i);
    SplitConsShape(s[..i], sep, s[i + 1..], maxsplit, SplitN(s[i + 1..], sep, maxsplit - 1));
  }

  /** Putting a separator-free head in front of a split of shape `maxsplit - 1` of `tail`
      gives a split of shape `maxsplit` of `head + [sep] + tail`. */
  lemma SplitConsShape(head: string, sep: char, tail: string, maxsplit: nat, rest: seq<string>)
    requires Lacks(head, sep) && maxsplit > 0
    requires IsSplitN(tail, sep, maxsplit - 1, rest)
    ensures IsSplitN(head + [sep] + tail, sep, maxsplit, [head] + rest)
  {
    var parts := [head] + rest;
    assert parts[1..] == rest;
    assert forall k :: 1 <= k < |parts| ==> parts[k] == rest[k - 1];
  }

  lemma {:induction false} SplitNUnique(s: string, sep: char, maxsplit: nat, parts: seq<string>)
    requires IsSplitN(s, sep, maxsplit, parts)
    ensures parts == SplitN(s, sep, maxsplit)
    decreases maxsplit
  {
    if maxsplit == 0 || |parts| == 1 {
      SplitNSingle(s, sep, maxsplit, parts);
    } else {
      SplitTail(s, sep, maxsplit, parts);
      SplitNUnique(Join(parts[1..], sep), sep, maxsplit - 1, parts[1..]);
      SplitNConsUnique(s, sep, maxsplit, parts);
    }
  }

  /** A one-part split is the whole string, which is what `split` returns when it cuts nothing. */
  lemma SplitNSingle(s: string, sep: char, maxsplit: nat, parts: seq<string>)
    requires IsSplitN(s, sep, maxsplit, parts) && (maxsplit == 0 || |parts| == 1)
    ensures parts == SplitN(s, sep, maxsplit)
  {
    assert Join(parts, sep) == parts[0];
    assert parts == [s];
  }

  /** If the parts after the first are the split of what follows the first separator,
      then the whole list is the split of `s`. */
  lemma SplitNConsUnique(s: string, sep: char, maxsplit: nat, parts: seq<string>)
    requires IsSplitN(s, sep, maxsplit, parts) && |parts| >= 2
    requires parts[1..] == SplitN(Join(parts[1..], sep), sep, maxsplit - 1)
    ensures parts == SplitN(s, sep, maxsplit)
  {
    var tail := Join(parts[1..], sep);
    assert s == parts[0] + [sep] + tail;
    FirstCut(parts[0], sep, tail);
    SplitNAt(s, sep, maxsplit, |parts[0]|);
    assert s[..|parts[0]|] == parts[0];
    assert s[|parts[0]| + 1..] == tail;
    assert parts == [parts[0]] + parts[1..];
  }

  /** Dropping the first part of a split of shape `maxsplit` leaves a split of shape `maxsplit - 1`. */
  lemma SplitTail(s: string, sep: char, maxsplit: nat, parts: seq<string>)
    requires IsSplitN(s, sep, maxsplit, parts) && |parts| >= 2
    ensures IsSplitN(Join(parts[1..], sep), sep, maxsplit - 1, parts[1..])
  {
    var rest := parts[1..];
    forall k | 0 <= k < |rest| - 1 ensures Lacks(rest[k], sep) {
      assert rest[k] == parts[k + 1];
    }
  }

  /** `sep.join(s.split(sep, maxsplit)) == s`: splitting loses nothing. */
  lemma JoinSplitN(s: string, sep: char, maxsplit: nat)
    ensures Join(SplitN(s, sep, maxsplit), sep) == s
  {
    SplitNShape(s, sep, maxsplit);
  }

  /** `(a + sep + b + sep + c).split(sep, 2) == [a, b, c]` when `a` and `b` hold no separator,
      whatever `c` holds. */
  lemma SplitThree(a: string, b: string, c: string, sep: char)
    requires Lacks(a, sep) && Lacks(b, sep)
    ensures SplitN(a + [sep] + b + [sep] + c, sep, 2) == [a, b, c]
  {
    var parts := [a, b, c];
    assert Join(parts[1..], sep) == b + [sep] + c;
    assert Join(parts, sep) == a + [sep] + b + [sep] + c;
    SplitNCharacterisation(a + [sep] + b + [sep] + c, sep, 2, parts);
  }

  /** `(a + sep + b + sep + c + sep + d).split(sep, 3) == [a, b, c, d]` when `a`, `b` and `c`
      hold no separator. */
  lemma SplitFour(a: string, b: string, c: string, d: string, sep: char)
    requires Lacks(a, sep) && Lacks(b, sep) && Lacks(c, sep)
    ensures SplitN(a + [sep] + b + [sep] + c + [sep] + d, sep, 3) == [a, b, c, d]
  {
    var parts := [a, b, c, d];
    assert Join(parts[2..], sep) == c + [sep] + d;
    assert Join(parts[1..], sep) == b + [sep] + c + [sep] + d;
    assert Join(parts, sep) == a + [sep] + b + [sep] + c + [sep] + d;
    SplitNCharacterisation(a + [sep] + b + [sep] + c + [sep] + d, sep, 3, parts);
  }

  /** `sep.join(s.split(sep)) == s`. */
  lemma {:induction false} JoinSplitAll(s: string, sep: char)
    ensures Join(SplitAll(s, sep), sep) == s
    decreases |s|
  {
    match FirstIndex(s, sep)
    case None =>
    case Some(i) =>
      JoinSplitAll(s[i + 1..], sep);
      var parts := SplitAll(s, sep);
      assert parts[1..] == SplitAll(s[i + 1..], sep);
      assert s == s[..i] + [sep] + s[i + 1..];
  }

  /** A string without the separator is one part. */
  lemma SplitAllWhole(s: string, sep: char)
    requires Lacks(s, sep)
    ensures SplitAll(s, sep) == [s]
  {
  }

  /** The first part ends at the first separator. */
  lemma SplitAllCons(a: string, sep: char, rest: string)
    requires Lacks(a, sep)
    ensures SplitAll(a + [sep] + rest, sep) == [a] + SplitAll(rest, sep)
  {
    var s := a + [sep] + rest;
    FirstCut(a, sep, rest);
    assert s[..|a|] == a && s[|a| + 1..] == rest;
  }

  /** `split(sep)` is the only list of separator-free parts that joins back to `s`. */
  lemma {:induction false} SplitAllUnique(s: string, sep: char, parts: seq<string>)
    requires 1 <= |parts| && Join(parts, sep) == s
    requires forall k :: 0 <= k < |parts| ==> Lacks(parts[k], sep)
    ensures parts == SplitAll(s, sep)
    decreases |parts|
  {
    if |parts| == 1 {
      SplitAllWhole(s, sep);
    } else {
      var rest := Join(parts[1..], sep);
      assert forall k :: 0 <= k < |parts| - 1 ==> parts[1..][k] == parts[k + 1];
      SplitAllUnique(rest, sep, parts[1..]);
      SplitAllCons(parts[0], sep, rest);
      assert parts == [parts[0]] + parts[1..];
    }
  }

  /** `(a + sep + b + sep + c).split(sep) == [a, b, c]` when none of them holds the separator. */
  lemma SplitAllThree(a: string, b: string, c: string, sep: char)
    requires Lacks(a, sep) && Lacks(b, sep) && Lacks(c, sep)
    ensures SplitAll(a + [sep] + b + [sep] + c, sep) == [a, b, c]
  {
    var parts := [a, b, c];
    assert Join(parts[1..], sep) == b + [sep] + c;
    assert Join(parts, sep) == a + [sep] + b + [sep] + c;
    SplitAllUnique(a + [sep] + b + [sep] + c, sep, parts);
  }

  // ---------------------------------------------------------------- integers

  predicate IsDigit(c: char) {
    '0' <= c <= '9'
  }

  function DigitValue(c: char): nat
    requires IsDigit(c)
  {
    c as int - '0' as int
  }

  function DigitChar(d: nat): (c: char)
    requires d < 10
    ensures IsDigit(c) && DigitValue(c) == d
  {
    ('0' as int + d) as char
  }

  /** `str(n)` for a natural number: decimal digits, no leading zero. */
  function NatToString(n: nat): (s: string)
    ensures |s| >= 1 && forall k :: 0 <= k < |s| ==> IsDigit(s[k])
    ensures s[0] == '0' ==> n == 0 && s == "0"
    decreases n
  {
    if n < 10 then [DigitChar(n)] else NatToString(n / 10) + [DigitChar(n % 10)]
  }

  /** `str(i)`: a minus sign in front of the digits of a negative number. */
  function IntToString(i: int): (s: string)
    ensures |s| >= 1 && (s[0] == '-' <==> i < 0)
    ensures Lacks(s, ' ')
  {
    if i < 0 then "-" + NatToString(-i) else NatToString(i)
  }

  /** The digits of a base-10 literal as `int()` accepts them: ASCII digits, with single
      underscores allowed between two digits (`1_000`). */
  predicate IsDigitRun(s: string) {
    && |s| > 0
    && IsDigit(s[0])
    && forall k :: 0 <= k < |s| ==> DigitRunAt(s, k)
  }

  /** Position `k` of a digit run: a digit, or an underscore with a digit right after it. */
  predicate DigitRunAt(s: string, k: int)
    requires 0 <= k < |s|
  {
    IsDigit(s[k]) || (s[k] == '_' && k + 1 < |s| && IsDigit(s[k + 1]))
  }

  /** The number a digit run denotes, underscores ignored. */
  function DigitsValue(s: string): nat
    decreases |s|
  {
    if |s| == 0 then 0
    else if IsDigit(s[|s| - 1]) then DigitsValue(s[..|s| - 1]) * 10 + DigitValue(s[|s| - 1])
    else DigitsValue(s[..|s| - 1])
  }

  /** `int(s)` in base 10: surrounding whitespace is skipped, then an optional sign and a
      digit run; anything else raises `ValueError`, here `None`. A number is read only from
      text that holds a digit, and only when nothing but whitespace surrounds the literal. */
  function ParseInt(s: string): (r: Option<int>)
    ensures r.Some? ==> exists k :: 0 <= k < |s| && IsDigit(s[k])
    ensures r.Some? ==> |s| > 0 && !IsIntSpace(s[LeadingRun(s, IsIntSpace)])
    ensures r.Some? ==> forall k :: 0 <= k < |s| ==> !(0x1c <= s[k] as int <= 0x1f)
  {
    var r := ParseLiteral(Strip(s, IsIntSpace));
    if r.Some? then
      ParsedHoldsDigit(s);
      ParsedNotBlank(s);
      ParsedNoSeparator(s);
      r
    else r
  }

  /** A literal `int()` reads holds a digit. */
  lemma ParsedHoldsDigit(s: string)
    requires ParseLiteral(Strip(s, IsIntSpace)).Some?
    ensures exists k :: 0 <= k < |s| && IsDigit(s[k])
  {
    var t := Strip(s, IsIntSpace);
    var i := LeadingRun(s, IsIntSpace);
    var k :| 0 <= k < |t| && IsDigit(t[k]);
    assert s[i + k] == t[k];
  }

  /** A literal `int()` reads is not all whitespace. */
  lemma ParsedNotBlank(s: string)
    requires ParseLiteral(Strip(s, IsIntSpace)).Some?
    ensures |s| > 0 && !IsIntSpace(s[LeadingRun(s, IsIntSpace)])
  {
    StripNonEmpty(s, IsIntSpace);
  }

  /** Text `int()` reads holds only the whitespace it skips and literal characters, so none
      of the separators U+001C to U+001F. */
  lemma ParsedNoSeparator(s: string)
    requires ParseLiteral(Strip(s, IsIntSpace)).Some?
    ensures forall k :: 0 <= k < |s| ==> !(0x1c <= s[k] as int <= 0x1f)
  {
    StripCovers(s, IsIntSpace, IsLiteralChar);
  }

  /** Only text that is not all whitespace strips to something. */
  lemma StripNonEmpty(s: string, ws: char -> bool)
    requires |Strip(s, ws)| > 0
    ensures LeadingRun(s, ws) < |s| && !ws(s[LeadingRun(s, ws)])
  {
  }

  /** When every character of the stripped core has property `p`, every character of the
      whole text is whitespace or has `p`. */
  lemma StripCovers(s: string, ws: char -> bool, p: char -> bool)
    requires forall k :: 0 <= k < |Strip(s, ws)| ==> p(Strip(s, ws)[k])
    ensures forall j :: 0 <= j < |s| ==> ws(s[j]) || p(s[j])
  {
    var t := Strip(s, ws);
    var i := LeadingRun(s, ws);
    forall j | 0 <= j < |s| ensures ws(s[j]) || p(s[j]) {
      if i <= j < i + |t| {
        assert s[j] == t[j - i];
      }
    }
  }

  /** A character a decimal literal may hold: a digit, an underscore or a sign. */
  predicate IsLiteralChar(c: char) {
    IsDigit(c) || c == '_' || c == '+' || c == '-'
  }

  lemma DigitRunChars(s: string)
    requires IsDigitRun(s)
    ensures forall k :: 0 <= k < |s| ==> IsLiteralChar(s[k])
  {
    forall k | 0 <= k < |s| ensures IsLiteralChar(s[k]) {
      DigitRunChar(s, k);
    }
  }

  lemma DigitRunChar(s: string, k: int)
    requires IsDigitRun(s) && 0 <= k < |s|
    ensures IsLiteralChar(s[k])
  {
    assert DigitRunAt(s, k);
  }

  /** The sign-and-digits part of `int()`, on text already stripped of whitespace. */
  function ParseLiteral(t: string): (r: Option<int>)
    ensures r.Some? ==> exists k :: 0 <= k < |t| && IsDigit(t[k])
    ensures r.Some? ==> forall k :: 0 <= k < |t| ==> IsLiteralChar(t[k])
  {
    if |t| > 0 && (t[0] == '+' || t[0] == '-') then
      if IsDigitRun(t[1..]) then
        assert IsDigit(t[1]);
        DigitRunChars(t[1..]);
        forall k | 1 <= k < |t| ensures IsLiteralChar(t[k]) {
          assert t[k] == t[1..][k - 1];
        }
        var v: int := if t[0] == '-' then -(DigitsValue(t[1..]) as int) else DigitsValue(t[1..]);
        Some(v)
      else None
    else if IsDigitRun(t) then
      DigitRunChars(t);
      Some(DigitsValue(t))
    else None
  }

  /** `int()` does not skip the separators U+001C to U+001F: `int("\x1c12")` raises. */
  lemma ParseIntRejectsSeparator(d: string)
    ensures ParseInt([0x1c as char] + d) == None
  {
  }

  /** `int()` raises on text that holds no digit at all. */
  lemma ParseIntNeedsDigit(s: string)
    requires forall k :: 0 <= k < |s| ==> !IsDigit(s[k])
    ensures ParseInt(s) == None
  {
    var t := Strip(s, IsIntSpace);
    var i := LeadingRun(s, IsIntSpace);
    forall k | 0 <= k < |t| ensures !IsDigit(t[k]) {
      assert t[k] == s[i + k];
    }
    LiteralNeedsDigit(t);
  }

  lemma LiteralNeedsDigit(t: string)
    requires forall k :: 0 <= k < |t| ==> !IsDigit(t[k])
    ensures ParseLiteral(t) == None
  {
    if |t| > 1 {
      assert t[1..][0] == t[1];
    }
  }

  lemma {:induction false} DigitsValueOfNatToString(n: nat)
    ensures DigitsValue(NatToString(n)) == n
    decreases n
  {
    if n >= 10 {
      var p := NatToString(n / 10);
      DigitsValueOfNatToString(n / 10);
      assert (p + [DigitChar(n % 10)])[..|p|] == p;
    }
  }

  /** `int(str(i)) == i`: a number written by `str` reads back as the same number. */
  lemma ParseIntToString(i: int)
    ensures ParseInt(IntToString(i)) == Some(i)
  {
    var n: nat := if i < 0 then -i else i;
    var d := NatToString(n);
    DigitsValueOfNatToString(n);
    var s := IntToString(i);
    assert s[|s| - 1] == d[|d| - 1];
    assert IsDigit(s[0]) || s[0] == '-';
    StripKeeps(s, IsIntSpace);
    if i < 0 {
      assert s == "-" + d;
      LiteralSigned(d);
    } else {
      assert s == d;
      LiteralUnsigned(d);
    }
  }

  lemma LiteralUnsigned(d: string)
    requires |d| >= 1 && forall k :: 0 <= k < |d| ==> IsDigit(d[k])
    ensures ParseLiteral(d) == Some(DigitsValue(d))
  {
  }

  lemma LiteralSigned(d: string)
    requires |d| >= 1 && forall k :: 0 <= k < |d| ==> IsDigit(d[k])
    ensures ParseLiteral("-" + d) == Some(-(DigitsValue(d) as int))
  {
    var t := "-" + d;
    assert t[0] == '-' && t[1..] == d;
    assert IsDigitRun(d);
  }
}

=== FILE: routing.dfy ===
/** What handling one event produces, shared by the three servers: the lines written to
    which connections, the one reactor-level side effect, or the Python exception that
    escaped the handler. */
module Routing {
  import opened Lists

  /** A live connection (a protocol instance); the servers compare protocols by identity. */
  type Handle = nat

  /** A line written with `sendLine`: plain text, or the ciphertext that encrypting
      `plain` under the public key `key` yields (the cipher itself is not modelled). */
  datatype Line = Text(text: string) | Sealed(key: string, plain: string)

  datatype Delivery = Delivery(to: Handle, line: Line)

  /** The calls into Twisted a handler makes besides writing lines. */
  datatype Effect =
    | NoEffect
    | LoseConnection(conn: Handle)          // transport.loseConnection()
    | StopReactor                           // reactor.stop()
    | ConnectTcp(host: string, port: int)   // reactor.connectTCP(host, port, ...)

  /** The Python 3 exceptions the handlers can raise. */
  datatype PyError = AttributeError | TypeError | ValueError | KeyError

  datatype Result<+T> = Ok(value: T) | Err(error: PyError)

  /** The effect of one received line on a network connection. */
  datatype Reaction = Reaction(deliveries: seq<Delivery>, effect: Effect)

  /** The effect of one chunk of console input: lines to peers, text shown on the console,
      a reactor effect, and whether the `>>> ` prompt is written again. */
  datatype ConsoleReaction = ConsoleReaction(
    deliveries: seq<Delivery>, shown: seq<string>, effect: Effect, prompt: bool)

  /** A reaction that writes one line back to `conn` and does nothing else. */
  function Reply(conn: Handle, text: string): Reaction {
    Reaction([Delivery(conn, Text(text))], NoEffect)
  }

  /** Who receives the deliveries, in order. */
  function Recipients(ds: seq<Delivery>): (hs: seq<Handle>)
    ensures |hs| == |ds| && forall k :: 0 <= k < |ds| ==> hs[k] == ds[k].to
  {
    seq(|ds|, k requires 0 <= k < |ds| => ds[k].to)
  }

  /** One delivery of `line` to each of `hs`, in order. */
  function SendAll(hs: seq<Handle>, line: Line): (ds: seq<Delivery>)
    ensures Recipients(ds) == hs
    ensures forall k :: 0 <= k < |ds| ==> ds[k].line == line
  {
    seq(|hs|, k requires 0 <= k < |hs| => Delivery(hs[k], line))
  }

  /** `a` is `b` with some elements left out, order kept. */
  predicate IsSubsequence<T(==)>(a: seq<T>, b: seq<T>)
    decreases |b|
  {
    if |a| == 0 then true
    else if |b| == 0 then false
    else if a[0] == b[0] then IsSubsequence(a[1..], b[1..])
    else IsSubsequence(a, b[1..])
  }

  /** The clients a `for client in clients: if client != self` loop visits: every
      registered client other than the sender, as often as it is registered, in
      registry order, and never the sender. */
  function Others(clients: seq<Handle>, sender: Handle): (hs: seq<Handle>)
    ensures forall c :: multiset(hs)[c] == if c == sender then 0 else multiset(clients)[c]
    ensures IsSubsequence(hs, clients)
    decreases |clients|
  {
    if |clients| == 0 then []
    else
      var rest := Others(clients[1..], sender);
      assert clients == [clients[0]] + clients[1..];
      if clients[0] == sender then
        assert |rest| > 0 ==> rest[0] != clients[0] by {
          if |rest| > 0 {
            assert rest[0] in multiset(rest);
          }
        }
        rest
      else
        assert ([clients[0]] + rest)[1..] == rest;
        [clients[0]] + rest
  }

  /** With no duplicate registrations, every other client is visited exactly once. */
  lemma OthersOnce(clients: seq<Handle>, sender: Handle, c: Handle)
    requires NoDup(clients)
    ensures multiset(Others(clients, sender))[c] == if c in clients && c != sender then 1 else 0
  {
    NoDupCount(clients, c);
  }

  lemma {:induction false} NoDupCount<T>(s: seq<T>, x: T)
    requires NoDup(s)
    ensures multiset(s)[x] == if x in s then 1 else 0
    decreases |s|
  {
    if |s| > 0 {
      assert s == [s[0]] + s[1..];
      assert NoDup(s[1..]);
      NoDupCount(s[1..], x);
      assert s[0] !in s[1..];
    }
  }
}

=== FILE: server.dfy ===
/** The minimal relay: a list of connected protocols, and every received line goes to
    everyone but its sender. Under Python 3 the relay loop calls `.encode` on the `bytes`
    line it was given, so the first other client it reaches makes it raise. */
module Server {
  import opened Routing
  import opened ListRegistry

  /** `lineReceived`: no command is recognised, so the line's content never matters. The
      relay loop raises `AttributeError` on the first client other than the sender (it
      encodes a `bytes` value), so nothing is ever delivered; the handler finishes quietly
      only when the sender is alone. */
  function LineReceived(clients: Registry, sender: Handle, line: string): (r: Result<Reaction>)
    ensures r.Ok? <==> forall k :: 0 <= k < |clients| ==> clients[k] == sender
    ensures r.Ok? ==> r.value == Reaction([], NoEffect)
    ensures r.Err? ==> r.error == AttributeError
  {
    var targets := Others(clients, sender);
    if |targets| == 0 then
      assert forall k :: 0 <= k < |clients| ==> clients[k] == sender by {
        forall k | 0 <= k < |clients| ensures clients[k] == sender {
          assert clients[k] in multiset(clients);
        }
      }
      Ok(Reaction([], NoEffect))
    else
      assert targets[0] in multiset(targets);
      assert targets[0] in multiset(clients);
      Err(AttributeError)
  }
}
